=== FILE: README.md ===
# RSA file encryption: the GUI front-end and its C engine, in Dafny

The system is a desktop front-end (`src/gui.py`) that drives a command-line
RSA engine (`src/rsa_encrypt.c`). This project models both halves.

- **Front-end, `src/gui.py`.**
  - It finds the engine among a fixed list of candidate paths (`Discovery`).
  - It probes the engine by running it without arguments, and turns the label
    text into the state of the encrypt button (`Health`).
  - It names the two output files after the input, adding the first free `_N`
    suffix when either name is taken (`Naming`, over `os.path` in `Paths`).
  - Encryption runs in the background. It logs a plan, starts the engine,
    reports the result, reads the key file back and re-enables the button
    (`Session`). This is modelled as the ordered list of effects it has on the
    window.
- **Engine, `src/rsa_encrypt.c`.**
  - Helpers (`RsaMath`):
    - the decimal digit count and conversions;
    - Euclid's gcd;
    - trial-division primality;
    - `mod_mult` and `mod_exp`.
  - Key generation (`RsaKeys`):
    - a prime derived from two `rand()` draws;
    - the least acceptable public exponent;
    - the least private exponent.
  - Per-byte encryption and decryption (`RsaCipher`).
  - The two file formats and what `fscanf` makes of them (`Formats`, over
    `Scanf`).
  - `main`, `encrypt_file` and `decrypt_file` over a disk of byte strings
    (`Engine`).
- **The two halves together (`Integration`).** The engine's exit status and
  standard output become the front-end's process result, and the key file it
  reads back is the one the engine wrote.

C integers are unbounded in the model. Every place where the C types could
overflow, or where C leaves an operation undefined, is either a precondition
(the helpers) or an explicit `Undefined` outcome of the engine. For `gcd` the
precondition is `RsaMath.GcdInDomain`: both arguments are `int`s and no step
of the recursion computes `INT_MIN % -1`. `gcd(-1, INT_MIN)` reaches that
remainder on its second step, and any two arguments above `INT_MIN` never do.
The engine's outcome is `Undefined` on:
- a value `fscanf` converts from the key file or the ciphertext that does not
  fit its C variable (undefined by section 7.21.6.2 of ISO C11, whatever
  happens after it in the file);
- `(int)strlen` beyond `INT_MAX`. Section 6.3.1.3 of ISO C11 makes this
  conversion implementation-defined rather than undefined; the model treats it
  as `Undefined`, which promises nothing about that case;
- a key-file `length` of `INT_MAX` once every ciphertext value has been read:
  `decrypt_string` sizes its buffer with the `int` sum `length + 1`, which
  overflows;
- a ciphertext value for which `mod_exp` is undefined: a zero modulus,
  `LLONG_MIN % -1`, or a modulus whose squared residues need not fit a
  `long long`.

C's `%` truncates toward zero; it is written out as `CArith.CRem`. A negative
modulus works like its magnitude, so `mod_exp(5, 1, -7)` is 5.

The engine cannot decrypt what it encrypts. `encrypt_file` writes the
ciphertext values back to back, because the separator on
src/rsa_encrypt.c:267 is commented out. `decrypt_file` reads them with one
`%lld` per value. For two or more characters the first `%lld` swallows every
digit and the second one fails:
- `Formats.CiphertextUnreadable` proves this for the file format.
- `Engine.EncryptThenDecrypt` proves it for the two commands run one after the
  other. The decryption never succeeds. It reports "Invalid encrypted file
  format" when the run-together digits fit a `long long`, and is undefined
  when they do not.
- `Formats.CiphertextWithCommasRoundTrip` proves that the reading loop does
  recover every value once a comma is written between values.

The engine model keeps the code as written.

Where the code's behaviour differs from the repository's prose description,
the model follows the code:
- The engine's standard output and standard error are logged after
  `str.strip()`, not verbatim.
- An empty engine path is labelled "No executable specified" and logs nothing.
- A probe that fails does not disable a button that is already enabled.
  `Session.FailedProbeKeepsButton` proves that the button then disagrees with
  the rule `update_encrypt_button_state` applies.

## Model

| member | source | states |
|---|---|---|
| Discovery.FindExecutable | src/gui.py:23-51 | the absolute form of the first candidate that is a regular file; the bare default name (`rsa_encrypt.exe` on Windows, else `rsa_encrypt`) when no candidate is one |
| Discovery.FirstFile | src/gui.py:44-47 | the index of the first regular file among the candidates; it is below the list's length exactly when some candidate is a file, and no earlier candidate is one |
| Discovery.ExeCandidatesFirst | src/gui.py:25-42 | off Windows the bare names come after every `.exe` candidate: an existing `.exe` candidate gives the same result as on Windows, and otherwise the first existing bare name wins |
| Discovery.FirstFileAppend | src/gui.py:36-47 | the first file of a concatenated candidate list lies in the first part when that part holds one, and otherwise in the second part, offset by the first part's length |
| Host.StripTrims | src/gui.py:253-258 | what `str.strip()` keeps is an infix of the text, and everything removed before and after it is white space |
| Host.StripIdempotent | src/gui.py:253-258 | stripping already-stripped text changes nothing |
| Health.ProbeExecutable | src/gui.py:147-176 | nothing is started for an empty path or a path that is not a regular file, and these give "No executable specified" or "Executable not found"; otherwise the engine is started once with no arguments and is Ready exactly on exit status 0 or 1, TestFailed on any other status, TimedOut on a timeout and Faulted on another exception; at most one line is logged |
| Health.ReadyMarkOnlyWhenReady | src/gui.py:152-180 | the check mark the button rule looks for appears in a probe label exactly when the verdict is Ready |
| Health.ButtonState | src/gui.py:178-191 | the button is enabled exactly when the label holds the check mark and the input path is a non-empty existing file; the status line says "Ready to encrypt!", "Waiting for executable..." or "Please select a file to encrypt" in that order of precedence |
| Health.ButtonFollowsReadiness | src/gui.py:164-191 | on labels the probe produces, the button is enabled exactly when the engine is Ready and an existing input file is selected |
| Paths.SplitextOfExtension | src/gui.py:212-213 | `splitext` splits a path at a final `.ext` that has no dot or slash, provided the last component before it is not all dots |
| Paths.BasenameOfJoin | src/gui.py:203-204 | `basename(join(dir, name))` is `name` when `name` holds no slash |
| Paths.JoinAppend | src/gui.py:203-204 | text appended to a relative name stays at the end of the joined path |
| Naming.GenerateOutputPaths | src/gui.py:193-218 | no pair for an empty input; otherwise a pair of non-empty paths, neither of which exists; the plain `<stem>_encrypted.enc` / `<stem>_keys.key` pair beside the input when both are free, else the pair with the least suffix `N >= 1` whose two paths are both free |
| Naming.FindFreePair | src/gui.py:207-218 | the renaming loop ends: a numbered pair with more digits than the longest existing path is free. The result is free, it is the given pair when that is free, and otherwise it is the numbered pair of least free suffix |
| Naming.SuffixBeyondBoundIsFree | src/gui.py:211-216 | any suffix at least `10^L` is free, where `L` is the length of the longest existing path; this bounds the loop |
| Naming.RenamingReplacesSuffix | src/gui.py:208-215 | the `N`-th pair is the plain names with `_N` inserted before `.enc` and `.key`; suffixes never pile up, because the loop always restarts from the original names |
| Naming.SplitPlainEncrypted | src/gui.py:203-212 | the plain ciphertext path is `join(dir, stem + "_encrypted")` followed by `.enc`, and `splitext` splits it exactly there |
| Naming.SplitPlainKey | src/gui.py:204-213 | the plain key path is `join(dir, stem + "_keys")` followed by `.key`, and `splitext` splits it exactly there |
| Session.Initial | src/gui.py:15-105 | at start-up the engine path is the one found, no input is selected, the label reads "Checking executable..." and carries no check mark, the button is disabled under the status "Ready - Please select a file to encrypt", the progress bar is stopped and the log is empty |
| Session.CheckExecutable | src/gui.py:147-176 | the label and the log follow the probe; the button and status line are recomputed by the button rule only when the probe says Ready |
| Session.FailedProbeKeepsButton | src/gui.py:164-176 | after a failed probe the controls are unchanged, so a button that was enabled stays enabled even though the button rule would now disable it |
| Session.SelectInput | src/gui.py:136-139 | choosing a file stores it, applies the button rule to the unchanged label and the new path, logs its base name, and leaves the engine path, the label and the progress bar alone; the button is enabled exactly when the label holds the check mark and the file exists |
| Session.SelectBeforeProbe | src/gui.py:70-139 | a file chosen before the first probe never enables the button: the status says "Waiting for executable..." and the log holds only the selection |
| Session.SelectThenStart | src/gui.py:310-316 | after a selection, pressing the button is refused with "Please select a valid input file" exactly when the chosen path is not an existing file; an enabled button is never refused for that reason |
| Session.StartEncryption | src/gui.py:310-332 | an invalid input is rejected with "Please select a valid input file" before the engine path is checked ("C executable not found"); a start happens exactly when both are existing files, and it disables the button, starts the progress bar, sets "Encrypting file..." and clears the log |
| Session.RunEncryption | src/gui.py:220-297 | the paths are those `generate_output_paths` chooses: free, the plain pair when both plain names are free, else the pair with the least free suffix; the engine is started exactly when the input path is not empty, once, on the input and the two chosen paths |
| Session.PressEncrypt | src/gui.py:310-332 | a rejected press starts nothing; an accepted one, which needs both the input and the engine to be existing files, starts the engine exactly once, on the window's engine path and input and on a free pair of output paths |
| Session.SpawnsOfTrace | src/gui.py:224-248 | at most one process starts: none without output paths; otherwise the engine, called with `encrypt`, the input, the ciphertext path and the key path |
| Session.KeyReadOnlyOnSuccess | src/gui.py:261-282 | the key file is read back, from the key path, exactly when the engine exited with status 0 |
| Session.TraceEndsReenabled | src/gui.py:294-297 | on every path, errors included, the last two effects stop the progress bar and re-enable the button |
| Session.PlanBeforeSpawn | src/gui.py:236-248 | the five plan lines are logged before the engine starts, and no process starts after it |
| Session.StdoutBeforeStderr | src/gui.py:250-258 | when the engine printed on both streams, its stripped standard output is logged under its heading before its stripped standard error |
| Session.SuccessEffects | src/gui.py:261-277 | apart from log lines, success means, in order: start the engine, set the completed status, show the success dialog, read the key file, stop the progress bar, re-enable the button |
| Session.ReadOutcomeOnlyLogs | src/gui.py:299-308 | whether the key file could be read back changes only log lines, never the status, the dialogs or the button |
| RsaMath.Digits | src/rsa_encrypt.c:39-48 | the length of the decimal notation of `abs(t)`: 1 for 0, else the `k` with `10^(k-1) <= abs(t) < 10^k` |
| RsaMath.Gcd | src/rsa_encrypt.c:50-55 | for two `int`s on which the recursion never computes `INT_MIN % -1`: the result's magnitude divides both arguments, every common divisor divides the result, and the result is non-negative for non-negative arguments |
| RsaMath.GcdDefinedAwayFromMin | src/rsa_encrypt.c:50-55 | when neither argument is `INT_MIN`, no remainder of the recursion is `INT_MIN % -1`, so `gcd` is defined |
| RsaMath.GcdUndefinedAtMin | src/rsa_encrypt.c:54 | `gcd(-1, INT_MIN)` is outside the defined domain: its second call computes `INT_MIN % -1` |
| RsaMath.StringOfInt | src/rsa_encrypt.c:57-78 | the buffer holds `digits(t)` characters: the decimal notation for `t >= 0`; for `t < 0` the sign overwrites the leading digit |
| RsaMath.IntOfString | src/rsa_encrypt.c:80-94 | the accumulated value of the characters, negated after a leading `-`, on every string where no `int` operation overflows: no `result * 10`, no sum with the next character, and not the final multiplication by the sign |
| RsaMath.MultiplyStepCanOverflow | src/rsa_encrypt.c:90-92 | every prefix of "214748365+" has a value that fits an `int`, yet the string is outside that domain, because `214748365 * 10` does not fit |
| RsaMath.DecimalRoundTrip | src/rsa_encrypt.c:57-94 | reading back `string_of_int(t)` gives `t` for `t >= 0`; for negative `t` the lost digit makes the result strictly larger than `t` and at most 0 |
| RsaMath.IsPrimeC | src/rsa_encrypt.c:96-106 | true exactly when `abs(v)` is prime |
| RsaMath.OddTrialDivision | src/rsa_encrypt.c:102-105 | for an odd `u >= 3`, the loop over odd candidates whose square stays within `u` returns true exactly when `u` is prime |
| RsaMath.ModMult | src/rsa_encrypt.c:146-156 | for any non-zero modulus, negative included, with `2*abs(mod)` within `long long` (and not `LLONG_MIN % -1`): C's remainder of `a * b` for `b >= 0`, which depends only on `abs(mod)`; the true residue in `[0, abs(mod))` for non-negative arguments; 0 for `b < 0` |
| RsaMath.ModExp | src/rsa_encrypt.c:158-168 | for any non-zero modulus, negative included, of magnitude at most 3037000500 (and not `LLONG_MIN % -1`): C's remainder of `base^expo` for `expo > 0`, below `abs(mod)` in magnitude, and 1 otherwise, even when the modulus is 1; for a non-negative base the residue lies in `[0, abs(mod))` |
| RsaMath.ModulusSquareFits | src/rsa_encrypt.c:163-165 | the product of two residues fits a `long long` exactly when the modulus is at most 3037000500 |
| RsaKeys.PrimeSeed | src/rsa_encrypt.c:108-113 | the product `num1 * num2` the prime search starts from lies in `[9, 8910]` |
| RsaKeys.MakePrime | src/rsa_encrypt.c:108-120 | the largest prime not above the seed, which is at least 3 |
| RsaKeys.PublicKey | src/rsa_encrypt.c:122-135 | `n = p*q`, and `e` is the least prime `>= 2` coprime to `lambda`; when there is none below `lambda` the search stops at `lambda` (at 2 when `lambda <= 2`) |
| RsaKeys.PrivateKey | src/rsa_encrypt.c:137-144 | the least `d` in `[1, lambda]` with `d*e % lambda == 1`, and -1 exactly when there is none |
| RsaCipher.CStrLen | src/rsa_encrypt.c:171 | `strlen`: the bytes before it are non-zero and it stops at the first zero byte, or at the end |
| RsaCipher.EncryptString | src/rsa_encrypt.c:170-180 | for any non-zero modulus within `mod_exp`'s range: one value per byte before the NUL, each `mod_exp(byte, e, n)`; for `e > 0` each value is `byte^e mod abs(n)` in `[0, abs(n))` |
| RsaCipher.DecryptString | src/rsa_encrypt.c:182-192 | for a `length` below `INT_MAX`, so that `length + 1` fits an `int`, and any first `length` values on which `mod_exp` is defined, negative moduli included: the low byte of `mod_exp(value, d, n)` for each of them |
| Scanf.ScanSigned | src/rsa_encrypt.c:278-305 | `%lld` reads back exactly the value `%lld` wrote, when no digit follows |
| Formats.ParseKeyFile | src/rsa_encrypt.c:304-309 | a key record exactly when all six conversions of the key-file format succeed, holding the six scanned values in order |
| Formats.ScanFields | src/rsa_encrypt.c:278-305 | scanning written `name=value` lines with their directives recovers the values, whatever follows the last line |
| Formats.ParseFormatKeyFile | src/rsa_encrypt.c:278-305 | the key file `encrypt_file` writes parses back to the same six values |
| Formats.ScanCiphertext | src/rsa_encrypt.c:323-334 | the reading loop either completes with exactly `length` values or stops at the first failed `%lld` with fewer, keeping the values converted before it |
| Formats.CiphertextUnreadable | src/rsa_encrypt.c:265-334 | the ciphertext written for two or more non-negative values stops the reading loop after one value: the first `%lld` converts the whole digit run and the second meets the end of the file |
| Formats.CiphertextAmbiguous | src/rsa_encrypt.c:265-268 | two different value lists write the same ciphertext file |
| Formats.CiphertextWithCommasRoundTrip | src/rsa_encrypt.c:265-334 | with a comma between consecutive values, the reading loop recovers exactly the values written |
| Engine.DeriveKeys | src/rsa_encrypt.c:231-246 | `n = p*q`, `e` the least acceptable exponent, `d` -1 exactly when no `d` in `[1, lambda]` inverts `e` and otherwise the least one, which makes the keys a valid RSA triple |
| Engine.KeyGenUnique | src/rsa_encrypt.c:108-144 | the primes and keys derived from the first two bytes and the four draws are determined uniquely: two key sets that both meet the definition are equal |
| Engine.GenerateKeys | src/rsa_encrypt.c:226-246 | the keys meet that unique definition: each prime is the largest prime not above its seed, drawn from a byte of the input and two draws, both lie in `[3, 8910]`, and the keys are derived from them |
| Engine.LambdaHasNoInverse | src/rsa_encrypt.c:139-141 | no `d >= 1` satisfies `d*lambda % lambda == 1`, so when `e` reaches `lambda` the private key search fails |
| Engine.EncryptFile | src/rsa_encrypt.c:196-293 | the outcome for every input: "Cannot open input file", "Input file is empty" or "File must contain at least 2 characters" with the disk unchanged; otherwise, for the unique generated keys, "Private key generation failed", undefined when `strlen` exceeds `INT_MAX`, "Cannot create output file" with the disk unchanged, "Cannot create key file" with only the ciphertext written, and otherwise status 0 with both files written and the report printed; on status 0 the key file parses to the generated keys and nothing else changes |
| Engine.EncryptWithKeys | src/rsa_encrypt.c:240-292 | once the keys are generated: each of the five outcomes above, in the order the code checks them |
| Engine.DecryptFile | src/rsa_encrypt.c:295-358 | "Cannot open key file" for a missing key file; undefined as soon as a converted key value does not fit its C variable, even when a later directive fails; "Invalid key file format" when a conversion fails; otherwise the outcome of decrypting with the parsed key |
| Engine.KeyFitsScanned | src/rsa_encrypt.c:302-305 | for a complete key file, every converted value fits its variable exactly when the five `long long` fields and the `int` length are in range |
| Engine.DecryptWithKey | src/rsa_encrypt.c:312-357 | in the order the code meets them: "Cannot open input file"; "Memory allocation failed" for a negative length; undefined once a ciphertext value does not fit a `long long`; "Invalid encrypted file format" when a `%lld` fails; undefined when `length` is `INT_MAX`, because `length + 1` overflows, or when `mod_exp` is undefined on a value; "Cannot create output file"; otherwise status 0, the decrypted bytes in the output, and the report with the length. Every error leaves the disk unchanged |
| Engine.EngineMain | src/rsa_encrypt.c:360-383 | exit status 1 with no output unless there are exactly four arguments; "Unknown command" for any other command; `encrypt` and `decrypt` have exactly the outcomes of `encrypt_file` and `decrypt_file` on the three paths; status 0 comes only from them; after `encrypt` status 1 changes no file but the ciphertext path, and status 0 leaves a key file that holds the generated keys and is readable |
| Engine.WrittenCiphertextRejected | src/rsa_encrypt.c:265-334 | the key a successful encryption of at least two characters writes fits the C variables `decrypt_file` reads it into, yet the reading loop stops after one value on the ciphertext written with it |
| Engine.DecryptStopsAfterOne | src/rsa_encrypt.c:323-329 | when the reading loop stops after converting one value `v`, `decrypt_file` reports "Invalid encrypted file format" if `v` fits a `long long` and is undefined otherwise |
| Engine.EncryptThenDecrypt | src/rsa_encrypt.c:196-358 | `decrypt` right after a successful `encrypt` of two or more characters never succeeds: it fails with "Invalid encrypted file format" when the written digits fit a `long long`, and is undefined otherwise |
| Integration.ProbeEngine | src/gui.py:162-167 | an existing engine started with no arguments exits with status 1, so the probe always finds it Ready |
| Integration.RunEngine | src/gui.py:243-305 | the engine's exit status and standard output become the process result with an empty standard error; after status 0 the key file exists, parses, and reads back; any exit changes no file except the two output paths |
| Integration.EncryptOnPaths | src/gui.py:228-277 | the argument vector the front-end builds is dispatched by the engine as `encrypt` on the same three paths; the key file is read back exactly on status 0 and is then a valid key file; when neither output path existed, every existing file is left as it was |
| Integration.EncryptWithEngine | src/gui.py:220-297 | when the front-end and the engine see the same regular files: with a non-empty input the engine runs once on the generated paths, which do not exist yet; the key file is read back exactly on status 0 and is then a valid key file; and whatever the engine's exit, no file that existed before is changed |

## Left out

- Widgets, colours, geometry, the file dialogs, and `browse_executable`. These are presentation; only the label text, the button, the status line and the log are modelled.
- The worker thread and `root.after`. `run_encryption` is modelled as the sequence of effects it produces, in order.
- `subprocess.run`, its timeouts, and `open(...).read()`. These are results passed in as parameters.
- `os.path.abspath`. It depends on the working directory, so it is a function parameter.
- Windows path rules. `Paths` follows the POSIX flavour of `os.path`, and `os.name` only selects the candidate list.
- Host.StripTrims: white space is the ASCII and Latin-1 set that `str.isspace` accepts. The other Unicode spaces are not modelled.
- The text decoding of files. A byte is read as the character with the same code.
- `srand(time(NULL))` and `rand()`. The four draws are parameters; only the values the code derives from them matter.
- `sqrt` in `isprime`. The bound `i <= (int)sqrt(v)` is modelled as `i * i <= v`, which agrees for every `int`.
- Allocation failures, including `malloc(0)` returning NULL. The model's allocation always succeeds, so these branches are never taken: "Memory allocation failed", "Key generation failed" and "Encryption failed" in `encrypt_file`, and "Decryption failed" in `decrypt_file`. A negative length in `decrypt_file` is the one allocation failure modelled.
- `ftell` versus `fread`. The file size and the bytes read are taken to agree.
- `setvbuf` and `fflush`, which only change buffering.
- RsaMath.StringOfInt, RsaKeys.PublicKey: each requires arguments for which no C intermediate overflows. The overflowing C behaviour is not modelled.
- RsaMath.IntOfString: requires that none of its `int` operations overflows, and the overflowing behaviour is not modelled. It also reads every character as a non-negative code: where `char` is signed, a byte of 128 or more gives a negative `s[i] - '0'` in C, which the model does not reproduce. `int_of_string` has no caller in the engine; only `DecimalRoundTrip` uses it, on digit strings.
- Integration.EncryptWithEngine: the front-end's view and the engine's disk are related only by holding the same regular files. Directories and the engine's read-only paths are not cross-checked, and nothing changes the file system between choosing the paths and running the engine.
- RsaMath.ModMult: requires `2*abs(mod)` to fit a `long long`. That is enough for every sum and doubling to fit, but not needed for every argument; other calls that happen not to overflow are not modelled.
- RsaMath.ModExp: requires `abs(mod) <= 3037000500`, so that every product of two residues fits. Larger moduli are not modelled, even for bases and exponents where no product overflows.
- Engine.DecryptWithKey: a key modulus above 3037000500 in magnitude makes the outcome undefined, even for ciphertext values where `mod_exp` would not overflow. It follows from the ModExp bound.
- Integration.RunEngine: when the engine's behaviour is undefined, the process result is whatever the caller supplies.
- RSA correctness, that decryption inverts encryption. The engine never gets that far, because the ciphertext does not read back. It would also fail for bytes not below `n`.
- The log lines of `CheckExecutable` are kept as text. The encryption's log lines are a `Line` datatype whose `Render` gives the exact strings.

=== FILE: carith.dfy ===
/**
  Integer vocabulary shared by the model of the C engine: the C integer
  ranges, C's truncating remainder, natural powers, and the facts about
  Euclidean and truncating remainders that the engine's loops rely on.
*/
module CArith {

  const INT_MIN: int := -0x8000_0000
  const INT_MAX: int := 0x7fff_ffff
  const LLONG_MAX: int := 0x7fff_ffff_ffff_ffff

  /** A value representable as a C `int`. */
  predicate InInt(x: int) {
    INT_MIN <= x <= INT_MAX
  }

  /** A value representable as a C `long long`. */
  predicate InLong(x: int) {
    -LLONG_MAX - 1 <= x <= LLONG_MAX
  }

  function Abs(x: int): (r: nat)
    ensures r == x || r == -x
  {
    if x < 0 then -x else x
  }

  /** C's `a % m`: the remainder takes the sign of `a` (division truncates
      toward zero), unlike Dafny's Euclidean `%`. */
  function CRem(a: int, m: int): (r: int)
    requires m != 0
    ensures Abs(r) < Abs(m)
    ensures a >= 0 ==> r >= 0
    ensures a <= 0 ==> r <= 0
  {
    if a >= 0 then a % Abs(m) else -((-a) % Abs(m))
  }

  /** Only the magnitude of the divisor matters to C's remainder. */
  lemma CRemAbs(a: int, m: int)
    requires m != 0
    ensures CRem(a, m) == CRem(a, Abs(m))
  {
  }

  /** `b` raised to the natural power `e`. */
  function Pow(b: int, e: nat): int {
    if e == 0 then 1 else b * Pow(b, e - 1)
  }

  lemma PowNonnegative(b: int, e: nat)
    requires b >= 0
    ensures Pow(b, e) >= 0
  {
  }

  lemma {:induction false} PowPositive(b: int, e: nat)
    requires b > 0
    ensures Pow(b, e) > 0
  {
    if e > 0 {
      PowPositive(b, e - 1);
      MulPositive(b, Pow(b, e - 1));
    }
  }

  lemma MulPositive(x: int, y: int)
    requires x > 0 && y > 0
    ensures x * y > 0
  {
  }

  lemma {:induction false} PowSquare(b: int, k: nat)
    ensures Pow(b, 2 * k) == Pow(b * b, k)
  {
    if k > 0 {
      PowSquare(b, k - 1);
      calc {
        Pow(b, 2 * k);
        b * Pow(b, 2 * k - 1);
        b * (b * Pow(b, 2 * (k - 1)));
        { MulAssoc(b, b, Pow(b, 2 * (k - 1))); }
        (b * b) * Pow(b * b, k - 1);
      }
    }
  }

  lemma MulAssoc(x: int, y: int, z: int)
    ensures x * (y * z) == (x * y) * z
  {
  }

  /** Square-and-multiply: an odd exponent peels off one factor. */
  lemma PowOdd(b: int, k: nat)
    ensures Pow(b, 2 * k + 1) == b * Pow(b * b, k)
  {
    PowSquare(b, k);
  }

  lemma MulAtLeast(m: int, d: int)
    requires m > 0 && d >= 1
    ensures m * d >= m
  {
    assert m * d == m + m * (d - 1);
    assert m * (d - 1) >= 0;
  }

  /** Euclidean division is unique: any decomposition `x == m*q + r` with
      `0 <= r < m` is the one `/` and `%` compute. */
  lemma ModUnique(x: int, m: int, q: int, r: int)
    requires m > 0 && 0 <= r < m && x == m * q + r
    ensures x % m == r && x / m == q
  {
    var q', r' := x / m, x % m;
    var d := q - q';
    assert m * d == r' - r by {
      assert m * q - m * q' == m * (q - q');
    }
    if d > 0 {
      MulAtLeast(m, d);
    } else if d < 0 {
      MulAtLeast(m, -d);
    }
  }

  lemma ModAddMultiple(a: int, m: int, k: int)
    requires m > 0
    ensures (a + m * k) % m == a % m
  {
    assert a + m * k == m * (a / m + k) + a % m by {
      assert m * (a / m + k) == m * (a / m) + m * k;
    }
    ModUnique(a + m * k, m, a / m + k, a % m);
  }

  lemma ModAddLeft(x: int, y: int, m: int)
    requires m > 0
    ensures (x % m + y) % m == (x + y) % m
  {
    ModAddMultiple(x % m + y, m, x / m);
  }

  lemma ModMulLeft(x: int, y: int, m: int)
    requires m > 0
    ensures ((x % m) * y) % m == (x * y) % m
  {
    var q := x / m;
    assert x * y == (x % m) * y + m * (q * y) by {
      assert x == x % m + m * q;
      assert (x % m + m * q) * y == (x % m) * y + (m * q) * y;
      MulAssoc(m, q, y);
    }
    ModAddMultiple((x % m) * y, m, q * y);
  }

  lemma ModMulBoth(x: int, y: int, m: int)
    requires m > 0
    ensures ((x % m) * (y % m)) % m == (x * y) % m
  {
    ModMulLeft(x, y % m, m);
    ModMulLeft(y, x, m);
    assert x * (y % m) == (y % m) * x;
    assert x * y == y * x;
  }

  lemma ModIdempotent(x: int, m: int)
    requires m > 0
    ensures (x % m) % m == x % m
  {
    ModUnique(x % m, m, 0, x % m);
  }

  /** The truncating remainder of a signed magnitude. */
  lemma CRemSigned(s: int, z: int, m: int)
    requires m > 0 && z >= 0 && (s == 1 || s == -1)
    ensures CRem(s * z, m) == s * (z % m)
  {
    if s == -1 && z > 0 {
      assert -(s * z) == z;
    }
  }

  function Sign(x: int): (s: int)
    ensures s == 1 || s == -1
    ensures x == s * Abs(x)
  {
    if x < 0 then -1 else 1
  }

  lemma CRemAsSigned(x: int, m: int)
    requires m > 0
    ensures CRem(x, m) == Sign(x) * (Abs(x) % m)
  {
    CRemSigned(Sign(x), Abs(x), m);
  }

  lemma AbsMul(x: int, y: int)
    ensures Abs(x * y) == Abs(x) * Abs(y)
    ensures x * y != 0 ==> Sign(x * y) == Sign(x) * Sign(y)
  {
    if x < 0 && y < 0 {
      assert x * y == (-x) * (-y);
    } else if x < 0 && y > 0 {
      assert x * y == -((-x) * y);
      MulPositive(-x, y);
    } else if x > 0 && y < 0 {
      assert x * y == -(x * (-y));
      MulPositive(x, -y);
    }
  }

  /** C remainders compose with multiplication as Euclidean ones do:
      reducing both factors first does not change the reduced product. */
  lemma CRemMul(x: int, y: int, m: int)
    requires m > 0
    ensures CRem(CRem(x, m) * CRem(y, m), m) == CRem(x * y, m)
  {
    var X, Y := Abs(x), Abs(y);
    var sx, sy := Sign(x), Sign(y);
    var s := SignProduct(sx, sy);
    var p := (X % m) * (Y % m);
    assert CRem(x, m) * CRem(y, m) == s * p by {
      CRemAsSigned(x, m);
      CRemAsSigned(y, m);
      SignedProduct(sx, X % m, sy, Y % m);
    }
    CRemSigned(s, p, m);
    ModMulBoth(X, Y, m);
    CRemAsSigned(x * y, m);
    AbsMul(x, y);
    if (X * Y) % m != 0 {
      assert x * y != 0;
    }
  }

  function SignProduct(sx: int, sy: int): (s: int)
    requires sx == 1 || sx == -1
    requires sy == 1 || sy == -1
    ensures s == sx * sy && (s == 1 || s == -1)
  {
    if sx == sy then 1 else -1
  }

  lemma SignedProduct(sx: int, a: int, sy: int, b: int)
    requires sx == 1 || sx == -1
    requires sy == 1 || sy == -1
    ensures (sx * a) * (sy * b) == (sx * sy) * (a * b)
  {
  }

  lemma CRemIdempotent(x: int, m: int)
    requires m > 0
    ensures CRem(CRem(x, m), m) == CRem(x, m)
  {
    if x < 0 {
      ModIdempotent(-x, m);
    } else {
      ModIdempotent(x, m);
    }
  }

  /** Reducing one factor before multiplying does not change the reduced product. */
  lemma CRemMulLeft(x: int, y: int, m: int)
    requires m > 0
    ensures CRem(CRem(x, m) * y, m) == CRem(x * y, m)
  {
    CRemMul(CRem(x, m), y, m);
    CRemIdempotent(x, m);
    CRemMul(x, y, m);
  }

  lemma {:induction false} CRemPow(x: int, k: nat, m: int)
    requires m > 0
    ensures CRem(Pow(CRem(x, m), k), m) == CRem(Pow(x, k), m)
  {
    if k > 0 {
      var c := CRem(x, m);
      CRemPow(x, k - 1, m);
      calc {
        CRem(Pow(c, k), m);
        CRem(c * Pow(c, k - 1), m);
        { CRemMul(c, Pow(c, k - 1), m); }
        CRem(CRem(c, m) * CRem(Pow(c, k - 1), m), m);
        { CRemIdempotent(x, m); }
        CRem(c * CRem(Pow(x, k - 1), m), m);
        { CRemMul(x, Pow(x, k - 1), m); CRemIdempotent(x, m); CRemMul(c, Pow(x, k - 1), m);
          CRemIdempotent(Pow(x, k - 1), m); CRemMul(c, CRem(Pow(x, k - 1), m), m); }
        CRem(x * Pow(x, k - 1), m);
      }
    }
  }
}

=== FILE: decimal.dfy ===
/**
  Decimal notation: the rendering of a natural number as its shortest digit
  string, and the left-to-right accumulation `result * 10 + (c - '0')` that
  the engine, `printf` and `fscanf` all share. The round trip between the two
  is the fact the number formatting and parsing of the engine rest on.
*/
module Decimal {
  import opened CArith

  predicate IsDigit(c: char) {
    '0' <= c <= '9'
  }

  predicate AllDigits(s: string) {
    forall i :: 0 <= i < |s| ==> IsDigit(s[i])
  }

  function DigitChar(d: int): (c: char)
    requires 0 <= d < 10
    ensures IsDigit(c) && DigitValue(c) == d
  {
    ('0' as int + d) as char
  }

  /** The C expression `c - '0'`, for any character. */
  function DigitValue(c: char): int {
    c as int - '0' as int
  }

  /** The shortest decimal notation of `n`: no leading zero except for 0 itself. */
  function Dec(n: nat): (s: string)
    ensures |s| >= 1 && AllDigits(s)
    ensures |s| > 1 ==> s[0] != '0'
  {
    if n < 10 then [DigitChar(n)] else Dec(n / 10) + [DigitChar(n % 10)]
  }

  /** The value `result = result * 10 + (c - '0')` accumulates over `s`. */
  function Value(s: string): int {
    if s == [] then 0 else Value(s[..|s| - 1]) * 10 + DigitValue(s[|s| - 1])
  }

  lemma ValueSnoc(s: string, c: char)
    ensures Value(s + [c]) == Value(s) * 10 + DigitValue(c)
  {
    assert (s + [c])[..|s|] == s;
  }

  lemma {:induction false} ValueNonnegative(s: string)
    requires AllDigits(s)
    ensures Value(s) >= 0
  {
    if s != [] {
      ValueNonnegative(s[..|s| - 1]);
    }
  }

  /** Reading back the notation of `n` gives `n`. */
  lemma {:induction false} ValueOfDec(n: nat)
    ensures Value(Dec(n)) == n
  {
    if n >= 10 {
      ValueOfDec(n / 10);
      ValueSnoc(Dec(n / 10), DigitChar(n % 10));
    }
  }

  lemma DecInjective(a: nat, b: nat)
    requires Dec(a) == Dec(b)
    ensures a == b
  {
    ValueOfDec(a);
    ValueOfDec(b);
  }

  /** `Dec(n)` has exactly as many characters as `n` has decimal digits. */
  lemma {:induction false} DecLength(n: nat)
    ensures n < Pow(10, |Dec(n)|)
    ensures n > 0 ==> Pow(10, |Dec(n)| - 1) <= n
  {
    if n >= 10 {
      DecLength(n / 10);
      assert |Dec(n)| == |Dec(n / 10)| + 1;
    }
  }

  lemma {:induction false} PowMonotone(a: nat, b: nat)
    requires a <= b
    ensures Pow(10, a) <= Pow(10, b)
  {
    if a < b {
      PowMonotone(a, b - 1);
      PowPositive(10, b - 1);
    }
  }

  /** Large numbers have long notations. */
  lemma DecLongerThan(n: nat, k: nat)
    requires n >= Pow(10, k)
    ensures |Dec(n)| > k
  {
    DecLength(n);
    if |Dec(n)| <= k {
      PowMonotone(|Dec(n)|, k);
    }
  }

  /** Notation `printf` uses for `%d` and `%lld`. */
  function Signed(x: int): string {
    if x < 0 then "-" + Dec(-x) else Dec(x)
  }
}

=== FILE: discovery.dfy ===
/**
  How the GUI finds the engine at start-up (src/gui.py:23-51): the first
  of an ordered list of candidate locations that is a regular file, made
  absolute; otherwise a bare default name, which is not checked.
*/
module Discovery {
  import opened Host

  /** The candidates tried on every platform, in order. */
  const ExeCandidates: seq<string> := [
    "build/rsa_encrypt.exe",
    "build\\rsa_encrypt.exe",
    "rsa_encrypt.exe",
    "src/rsa_encrypt.exe",
    "src\\rsa_encrypt.exe",
    "../build/rsa_encrypt.exe",
    "../build\\rsa_encrypt.exe"
  ]

  /** The candidates appended when `os.name` is not `'nt'`. */
  const BareCandidates: seq<string> := [
    "build/rsa_encrypt",
    "rsa_encrypt",
    "src/rsa_encrypt",
    "../build/rsa_encrypt"
  ]

  function Candidates(isNt: bool): seq<string> {
    if isNt then ExeCandidates else ExeCandidates + BareCandidates
  }

  function DefaultName(isNt: bool): string {
    if isNt then "rsa_encrypt.exe" else "rsa_encrypt"
  }

  /** `cs[i]` is a regular file and no candidate before it is. */
  predicate FirstFileAt(fs: Fs, cs: seq<string>, i: int) {
    0 <= i < |cs| && IsFile(fs, cs[i]) && forall j :: 0 <= j < i ==> !IsFile(fs, cs[j])
  }

  predicate AnyFile(fs: Fs, cs: seq<string>) {
    exists i :: 0 <= i < |cs| && IsFile(fs, cs[i])
  }

  /** The loop over the candidates: the position of the first one that
      is a regular file, or `|cs|` when none is. */
  function FirstFile(fs: Fs, cs: seq<string>): (i: nat)
    ensures i <= |cs|
    ensures i < |cs| <==> AnyFile(fs, cs)
    ensures i < |cs| ==> FirstFileAt(fs, cs, i)
  {
    if cs == [] then 0
    else if IsFile(fs, cs[0]) then 0
    else
      var i := 1 + FirstFile(fs, cs[1..]);
      assert forall j :: 1 <= j < |cs| ==> cs[j] == cs[1..][j - 1];
      i
  }

  /** `auto_find_executable`: the absolute form of the first candidate that
      is a regular file, else the default name whether or not it exists.
      `abspath` stands for `os.path.abspath`, which depends on the working
      directory. */
  function FindExecutable(fs: Fs, isNt: bool, abspath: string -> string): (path: string)
    ensures AnyFile(fs, Candidates(isNt)) ==>
      exists i :: FirstFileAt(fs, Candidates(isNt), i) && path == abspath(Candidates(isNt)[i])
    ensures !AnyFile(fs, Candidates(isNt)) ==> path == DefaultName(isNt)
  {
    var cs := Candidates(isNt);
    var i := FirstFile(fs, cs);
    if i < |cs| then abspath(cs[i]) else DefaultName(isNt)
  }

  /** The first file of a concatenation lies in the first part when the
      first part has one, and is otherwise found in the second part. */
  lemma {:induction false} FirstFileAppend(fs: Fs, a: seq<string>, b: seq<string>)
    ensures FirstFile(fs, a + b) == if AnyFile(fs, a) then FirstFile(fs, a) else |a| + FirstFile(fs, b)
  {
    if a == [] {
      assert a + b == b;
    } else {
      assert (a + b)[0] == a[0];
      assert (a + b)[1..] == a[1..] + b;
      FirstFileAppend(fs, a[1..], b);
      if !IsFile(fs, a[0]) && AnyFile(fs, a) {
        var i :| 0 <= i < |a| && IsFile(fs, a[i]);
        assert a[1..][i - 1] == a[i];
      }
    }
  }

  /** Off Windows the bare names are tried only after every `.exe`
      candidate: an existing `.exe` candidate always wins. */
  lemma ExeCandidatesFirst(fs: Fs, abspath: string -> string)
    ensures AnyFile(fs, ExeCandidates) ==>
      FindExecutable(fs, false, abspath) == FindExecutable(fs, true, abspath)
    ensures !AnyFile(fs, ExeCandidates) && AnyFile(fs, BareCandidates) ==>
      exists i :: FirstFileAt(fs, BareCandidates, i)
        && FindExecutable(fs, false, abspath) == abspath(BareCandidates[i])
  {
    FirstFileAppend(fs, ExeCandidates, BareCandidates);
  }
}

=== FILE: engine.dfy ===
/**
  The command-line engine (src/rsa_encrypt.c:196-382): `main` dispatches
  `encrypt <in> <out> <keys>` and `decrypt <in> <out> <keys>`;
  `encrypt_file` derives two primes from the first two bytes of the input
  and four `rand()` draws, writes the ciphertext and the key file, and
  reports on standard output; `decrypt_file` reads both back.

  Files are byte strings in a `Disk`; `fopen` for reading fails exactly
  on a missing path and for writing exactly on a path in `readOnly`.
  Allocation never fails except where a negative size is asked for.
*/
module Engine {
  import opened Wrappers
  import opened CArith
  import opened Decimal
  import opened RsaMath
  import opened RsaKeys
  import opened RsaCipher
  import opened Formats
  import opened Scanf

  datatype Disk = Disk(files: map<string, seq<Byte>>, readOnly: set<string>)

  /** `fopen(path, "w")` followed by writes of `bytes` and `fclose`. */
  function Write(disk: Disk, path: string, bytes: seq<Byte>): Disk {
    disk.(files := disk.files[path := bytes])
  }

  /** `after` differs from `before` at most at the paths in `touched`. */
  predicate SameExcept(before: Disk, after: Disk, touched: set<string>) {
    && after.readOnly == before.readOnly
    && after.files.Keys - touched == before.files.Keys - touched
    && (forall path :: path in after.files && path in before.files && path !in touched
          ==> after.files[path] == before.files[path])
  }

  /** Allowing more paths to change keeps a `SameExcept` true. */
  lemma SameExceptWiden(before: Disk, after: Disk, touched: set<string>, wider: set<string>)
    requires SameExcept(before, after, touched) && touched <= wider
    ensures SameExcept(before, after, wider)
  {
    assert after.files.Keys - wider == (after.files.Keys - touched) - wider;
    assert before.files.Keys - wider == (before.files.Keys - touched) - wider;
  }

  /** A run that changes only paths which did not exist leaves every
      existing file as it was. */
  lemma SameExceptFresh(before: Disk, after: Disk, touched: set<string>)
    requires SameExcept(before, after, touched)
    requires forall path :: path in touched ==> path !in before.files
    ensures forall path :: path in before.files ==> path in after.files && after.files[path] == before.files[path]
  {
    forall path | path in before.files
      ensures path in after.files && after.files[path] == before.files[path]
    {
      assert path in before.files.Keys - touched;
    }
  }

  /** Status of a run: the exit code with what was printed and the files
      left behind, or a run whose C behaviour is undefined: a value read
      by `fscanf` outside its C type, a remainder by zero or of
      `LLONG_MIN` by -1, a product beyond `long long` in `mod_exp`, or a
      file longer than `int` can count. */
  datatype Outcome = Exited(code: int, stdout: string, disk: Disk) | Undefined

  /** The rand() values `make_prime` draws, two per prime. */
  datatype Draws = Draws(first: nat, second: nat, third: nat, fourth: nat)

  // ---------------------------------------------------------------------
  // Text as bytes

  predicate IsAscii(s: string) {
    forall i :: 0 <= i < |s| ==> s[i] as int < 256
  }

  /** The bytes `fprintf` writes for text made of characters below 256. */
  function Bytes(s: string): (b: seq<Byte>)
    requires IsAscii(s)
    ensures |b| == |s| && forall i :: 0 <= i < |s| ==> b[i] == s[i] as int
  {
    seq(|s|, i requires 0 <= i < |s| => s[i] as int)
  }

  /** The characters `fscanf` sees when reading bytes. */
  function Text(b: seq<Byte>): (s: string)
    ensures |s| == |b| && forall i :: 0 <= i < |b| ==> s[i] as int == b[i]
  {
    seq(|b|, i requires 0 <= i < |b| => b[i] as char)
  }

  lemma TextOfBytes(s: string)
    requires IsAscii(s)
    ensures Text(Bytes(s)) == s
  {
  }

  lemma SignedAscii(v: int)
    ensures IsAscii(Signed(v))
  {
    var s := Signed(v);
    assert forall i :: 0 <= i < |Dec(Abs(v))| ==> IsDigit(Dec(Abs(v))[i]);
    forall i | 0 <= i < |s|
      ensures s[i] as int < 256
    {
      if v < 0 && i == 0 {
      } else if v < 0 {
        assert s[i] == Dec(-v)[i - 1];
      } else {
        assert IsDigit(Dec(v)[i]);
      }
    }
  }

  lemma AsciiConcat(a: string, b: string)
    requires IsAscii(a) && IsAscii(b)
    ensures IsAscii(a + b)
  {
    assert forall i :: |a| <= i < |a + b| ==> (a + b)[i] == b[i - |a|];
  }

  lemma {:induction false} CiphertextAscii(values: seq<int>)
    ensures IsAscii(CiphertextText(values))
  {
    if values != [] {
      SignedAscii(values[0]);
      CiphertextAscii(values[1..]);
      AsciiConcat(Signed(values[0]), CiphertextText(values[1..]));
    }
  }

  lemma {:induction false} FieldsAscii(names: seq<string>, values: seq<int>)
    requires |names| == |values|
    requires forall i :: 0 <= i < |names| ==> IsAscii(names[i])
    ensures IsAscii(FieldsText(names, values))
  {
    if names != [] {
      SignedAscii(values[0]);
      AsciiConcat(names[0], "=");
      AsciiConcat(names[0] + "=", Signed(values[0]));
      AsciiConcat(names[0] + "=" + Signed(values[0]), "\n");
      FieldsAscii(names[1..], values[1..]);
      AsciiConcat(FieldText(names[0], values[0]), FieldsText(names[1..], values[1..]));
    }
  }

  lemma KeyFileAscii(k: KeyRecord)
    ensures IsAscii(FormatKeyFile(k))
  {
    FieldsAscii(KeyNames, KeyValues(k));
  }

  // ---------------------------------------------------------------------
  // encrypt_file

  /** `p` is what `make_prime` returns for `seed`. */
  predicate LargestPrimeAtMost(p: int, seed: int) {
    && IsPrime(p) && 3 <= p <= seed
    && forall k :: p < k <= seed ==> !IsPrime(k)
  }

  /** The numbers `encrypt_file` computes before encrypting: the primes,
      the public key `(n, e)` and the private exponent `d` (-1 when
      `private_key` finds none). */
  datatype KeyGen = KeyGen(p: int, q: int, n: int, e: int, d: int)

  /** `(p - 1) * (q - 1)`, the modulus of the exponent searches. */
  function Lambda(p: int, q: int): int {
    (p - 1) * (q - 1)
  }

  /** The public and private key `public_key` and `private_key` derive
      from the primes `g.p` and `g.q`, when `private_key` succeeds. */
  predicate KeysFor(g: KeyGen) {
    var lambda := Lambda(g.p, g.q);
    && g.n == g.p * g.q && 9 <= g.n <= 8910 * 8910
    && 4 <= lambda
    && 2 <= g.e < lambda && Acceptable(g.e, lambda)
    && (forall j :: 2 <= j < g.e ==> !Acceptable(j, lambda))
    && 1 <= g.d <= lambda && IsInverse(g.d, g.e, lambda)
    && (forall j :: 1 <= j < g.d ==> !IsInverse(j, g.e, lambda))
  }

  /** The keys derived from the first two input bytes and the draws, when
      `private_key` succeeds. */
  predicate ValidKeys(g: KeyGen, b0: Byte, b1: Byte, draws: Draws) {
    && LargestPrimeAtMost(g.p, PrimeSeed(b0 % 10, draws.first, draws.second))
    && LargestPrimeAtMost(g.q, PrimeSeed(b1 % 10, draws.third, draws.fourth))
    && g.p <= 8910 && g.q <= 8910
    && KeysFor(g)
  }

  /** The key record a successful encryption of `content` writes. */
  predicate GoodKey(k: KeyRecord, content: seq<Byte>, draws: Draws)
    requires |content| >= 2
  {
    && ValidKeys(KeyGen(k.p, k.q, k.n, k.e, k.d), content[0], content[1], draws)
    && k.length == CStrLen(content) <= INT_MAX
  }

  function SuccessReport(k: KeyRecord): string {
    "Encryption successful!\n"
    + "Public Key (n, e): (" + Signed(k.n) + ", " + Signed(k.e) + ")\n"
    + "Private Key (d): " + Signed(k.d) + "\n"
    + "Encrypted " + Signed(k.length) + " characters\n"
  }

  /** No multiple of `lambda` is one more than a multiple of it. */
  lemma LambdaHasNoInverse(d: int, lambda: int)
    requires d >= 1 && lambda > 1
    ensures !IsInverse(d, lambda, lambda)
  {
    MulPositive(d, lambda);
    ModMulLeft(d, lambda, lambda);
    assert (d * lambda) % lambda == ((d % lambda) * lambda) % lambda;
    ModAddMultiple(0, lambda, d % lambda);
  }

  lemma KeyRanges(p: int, q: int)
    requires 3 <= p <= 8910 && 3 <= q <= 8910
    ensures 9 <= p * q <= 8910 * 8910
    ensures 4 <= (p - 1) * (q - 1) <= 8909 * 8909
    ensures (p - 1) * (q - 1) < p * q
  {
    MulMonotone(3, p, q);
    MulMonotone(3, q, 3);
    MulMonotone(p, 8910, q);
    MulMonotone(q, 8910, 8910);
    MulMonotone(2, p - 1, q - 1);
    MulMonotone(2, q - 1, 2);
    MulMonotone(p - 1, 8909, q - 1);
    MulMonotone(q - 1, 8909, 8909);
  }

  lemma PrivateKeyFits(e: int, lambda: int)
    requires 2 <= e <= lambda <= 8909 * 8909
    ensures Abs(e) * (lambda + 1) <= LLONG_MAX
  {
    MulMonotone(e, lambda, lambda + 1);
    MulMonotone(lambda + 1, 8909 * 8909 + 1, lambda);
  }

  /** `n` and `e` are what `public_key(p, q)` returns. */
  predicate PublicFor(g: KeyGen) {
    var lambda := Lambda(g.p, g.q);
    && g.n == g.p * g.q
    && 2 <= g.e
    && (g.e < lambda ==> Acceptable(g.e, lambda))
    && (g.e >= lambda ==> g.e == (if lambda > 2 then lambda else 2))
    && (forall k :: 2 <= k < g.e ==> !Acceptable(k, lambda))
  }

  /** `d` is what `private_key(p, q, e, lambda)` returns. */
  predicate PrivateFor(g: KeyGen)
    requires Lambda(g.p, g.q) != 0
  {
    var lambda := Lambda(g.p, g.q);
    && (g.d == -1 <==> forall j :: 1 <= j <= lambda ==> !IsInverse(j, g.e, lambda))
    && (g.d != -1 ==> 1 <= g.d <= lambda && IsInverse(g.d, g.e, lambda))
    && (g.d != -1 ==> forall j :: 1 <= j < g.d ==> !IsInverse(j, g.e, lambda))
  }

  /** `g` holds the numbers `encrypt_file` computes from the first two
      input bytes and the draws, whether or not `private_key` succeeds. */
  predicate KeyGenOf(g: KeyGen, b0: Byte, b1: Byte, draws: Draws) {
    && LargestPrimeAtMost(g.p, PrimeSeed(b0 % 10, draws.first, draws.second))
    && LargestPrimeAtMost(g.q, PrimeSeed(b1 % 10, draws.third, draws.fourth))
    && PublicFor(g)
    && 4 <= Lambda(g.p, g.q)
    && PrivateFor(g)
  }

  lemma LargestPrimeUnique(p1: int, p2: int, seed: int)
    requires LargestPrimeAtMost(p1, seed) && LargestPrimeAtMost(p2, seed)
    ensures p1 == p2
  {
  }

  /** The least-element searches leave no choice: the keys are a function
      of the first two input bytes and the draws. */
  lemma KeyGenUnique(g1: KeyGen, g2: KeyGen, b0: Byte, b1: Byte, draws: Draws)
    requires KeyGenOf(g1, b0, b1, draws) && KeyGenOf(g2, b0, b1, draws)
    ensures g1 == g2
  {
    LargestPrimeUnique(g1.p, g2.p, PrimeSeed(b0 % 10, draws.first, draws.second));
    LargestPrimeUnique(g1.q, g2.q, PrimeSeed(b1 % 10, draws.third, draws.fourth));
  }

  /** `public_key(p, q)` followed by `private_key(p, q, e, lambda)`. */
  method DeriveKeys(p: int, q: int) returns (g: KeyGen)
    requires 3 <= p <= 8910 && 3 <= q <= 8910
    ensures g.p == p && g.q == q
    ensures PublicFor(g) && 4 <= Lambda(p, q) && PrivateFor(g)
    ensures g.d != -1 ==> KeysFor(g)
  {
    KeyRanges(p, q);
    var n, e := PublicKey(p, q);
    var lambda := Lambda(p, q);
    PrivateKeyFits(e, lambda);
    var d := PrivateKey(p, q, e, lambda);
    if d != -1 && e >= lambda {
      LambdaHasNoInverse(d, lambda);
    }
    g := KeyGen(p, q, n, e, d);
  }

  /** Lines 226-246 of `encrypt_file`: two primes from the first two bytes,
      then the public and private key. */
  method GenerateKeys(b0: Byte, b1: Byte, draws: Draws) returns (g: KeyGen)
    ensures KeyGenOf(g, b0, b1, draws)
    ensures 3 <= g.p <= 8910 && 3 <= g.q <= 8910 && g.n > 0
    ensures g.d != -1 ==> ValidKeys(g, b0, b1, draws)
  {
    var prime1 := MakePrime(b0 % 10, draws.first, draws.second);
    var prime2 := MakePrime(b1 % 10, draws.third, draws.fourth);
    g := DeriveKeys(prime1, prime2);
    KeyRanges(prime1, prime2);
  }

  /** The bytes of a ciphertext file. */
  function CiphertextFile(values: seq<int>): (b: seq<Byte>)
    ensures Text(b) == CiphertextText(values)
  {
    CiphertextAscii(values);
    TextOfBytes(CiphertextText(values));
    Bytes(CiphertextText(values))
  }

  /** The bytes of a key file. */
  function KeyFileBytes(k: KeyRecord): (b: seq<Byte>)
    ensures Text(b) == FormatKeyFile(k)
    ensures ParseKeyFile(Text(b)) == Some(k)
  {
    KeyFileAscii(k);
    TextOfBytes(FormatKeyFile(k));
    ParseFormatKeyFile(k, "");
    assert FormatKeyFile(k) + "" == FormatKeyFile(k);
    Bytes(FormatKeyFile(k))
  }

  /** The outcome of `encrypt_file` on `content` once the keys `g` are
      generated: the private-key error, undefined behaviour when `strlen`
      does not fit an `int`, an error for each file that cannot be
      created (the ciphertext stays when only the key file fails), and
      otherwise both files written and the report printed. */
  predicate EncryptedWith(disk: Disk, content: seq<Byte>, output: string, key: string, g: KeyGen, o: Outcome)
    requires g.n != 0
  {
    var record := KeyRecord(g.p, g.q, g.n, g.e, g.d, CStrLen(content));
    var written := Write(disk, output, CiphertextFile(Encryption(content, g.e, g.n)));
    && (g.d == -1 ==> o == Exited(1, "Error: Private key generation failed\n", disk))
    && (g.d != -1 && CStrLen(content) > INT_MAX ==> o.Undefined?)
    && (g.d != -1 && CStrLen(content) <= INT_MAX && output in disk.readOnly
        ==> o == Exited(1, "Error: Cannot create output file '" + output + "'\n", disk))
    && (g.d != -1 && CStrLen(content) <= INT_MAX && output !in disk.readOnly && key in disk.readOnly
        ==> o == Exited(1, "Error: Cannot create key file '" + key + "'\n", written))
    && (g.d != -1 && CStrLen(content) <= INT_MAX && output !in disk.readOnly && key !in disk.readOnly
        ==> o == Exited(0, SuccessReport(record), Write(written, key, KeyFileBytes(record))))
  }

  /** The outcome of `encrypt_file`, for every input. */
  ghost predicate EncryptOutcome(disk: Disk, input: string, output: string, key: string, draws: Draws, o: Outcome) {
    && (input !in disk.files ==> o == Exited(1, "Error: Cannot open input file '" + input + "'\n", disk))
    && (input in disk.files && |disk.files[input]| == 0 ==> o == Exited(1, "Error: Input file is empty\n", disk))
    && (input in disk.files && |disk.files[input]| == 1
        ==> o == Exited(1, "Error: File must contain at least 2 characters\n", disk))
    && (input in disk.files && |disk.files[input]| >= 2 ==>
          forall g :: KeyGenOf(g, disk.files[input][0], disk.files[input][1], draws)
            ==> g.n != 0 && EncryptedWith(disk, disk.files[input], output, key, g, o))
  }

  /** Lines 226-292 of `encrypt_file`, after the input has been read. */
  method EncryptWithKeys(disk: Disk, content: seq<Byte>, output: string, key: string, g: KeyGen)
    returns (o: Outcome)
    requires g.n != 0
    requires g.d != -1 ==> KeysFor(g)
    ensures EncryptedWith(disk, content, output, key, g, o)
  {
    if g.d == -1 {
      return Exited(1, "Error: Private key generation failed\n", disk);
    }
    if CStrLen(content) > INT_MAX {
      // `(int)strlen(str)` does not fit
      return Undefined;
    }
    var encrypted := EncryptString(content, g.e, g.n);
    if output in disk.readOnly {
      return Exited(1, "Error: Cannot create output file '" + output + "'\n", disk);
    }
    var disk1 := Write(disk, output, CiphertextFile(encrypted));
    if key in disk1.readOnly {
      return Exited(1, "Error: Cannot create key file '" + key + "'\n", disk1);
    }
    var record := KeyRecord(g.p, g.q, g.n, g.e, g.d, |encrypted|);
    o := Exited(0, SuccessReport(record), Write(disk1, key, KeyFileBytes(record)));
  }

  /** What a successful `encrypt_file` leaves: the key file parses to the
      generated keys, the report names them, and the ciphertext file holds
      the written ciphertext. */
  predicate EncryptSucceeded(disk: Disk, content: seq<Byte>, output: string, key: string, draws: Draws, o: Outcome)
    requires |content| >= 2 && o.Exited?
  {
    && output !in disk.readOnly && key !in disk.readOnly
    && key in o.disk.files && output in o.disk.files
    && SameExcept(disk, o.disk, {output, key})
    && ParseKeyFile(Text(o.disk.files[key])).Some?
    && var k := ParseKeyFile(Text(o.disk.files[key])).value;
       && GoodKey(k, content, draws)
       && o.stdout == SuccessReport(k)
       && (output != key ==> Text(o.disk.files[output]) == CiphertextText(Encryption(content, k.e, k.n)))
  }

  lemma EncryptedWithSuccess(disk: Disk, content: seq<Byte>, output: string, key: string,
                             g: KeyGen, draws: Draws, o: Outcome)
    requires |content| >= 2 && g.n != 0 && EncryptedWith(disk, content, output, key, g, o)
    requires g.d != -1 ==> ValidKeys(g, content[0], content[1], draws)
    requires o.Exited? && o.code == 0
    ensures EncryptSucceeded(disk, content, output, key, draws, o)
  {
    var record := KeyRecord(g.p, g.q, g.n, g.e, g.d, CStrLen(content));
    assert g.d != -1 && CStrLen(content) <= INT_MAX && output !in disk.readOnly && key !in disk.readOnly;
    assert Text(o.disk.files[key]) == FormatKeyFile(record);
    assert ParseKeyFile(Text(o.disk.files[key])) == Some(record);
  }

  lemma EncryptedWithFailure(disk: Disk, content: seq<Byte>, output: string, key: string, g: KeyGen, o: Outcome)
    requires g.n != 0 && EncryptedWith(disk, content, output, key, g, o)
    ensures o.Exited? ==> o.code == 0 || o.code == 1
    ensures o.Undefined? ==> CStrLen(content) > INT_MAX
    ensures o.Exited? && o.code == 1 ==> SameExcept(disk, o.disk, {output})
  {
  }

  method EncryptFile(disk: Disk, input: string, output: string, key: string, draws: Draws)
    returns (o: Outcome)
    ensures EncryptOutcome(disk, input, output, key, draws, o)
    ensures o.Exited? ==> o.code == 0 || o.code == 1
    ensures o.Undefined? ==> input in disk.files && CStrLen(disk.files[input]) > INT_MAX
    ensures o.Exited? && o.code == 1 ==> SameExcept(disk, o.disk, {output})
    ensures o.Exited? && o.code == 0 ==>
      input in disk.files && |disk.files[input]| >= 2 && EncryptSucceeded(disk, disk.files[input], output, key, draws, o)
  {
    if input !in disk.files {
      return Exited(1, "Error: Cannot open input file '" + input + "'\n", disk);
    }
    var content := disk.files[input];
    if |content| == 0 {
      return Exited(1, "Error: Input file is empty\n", disk);
    }
    if |content| < 2 {
      return Exited(1, "Error: File must contain at least 2 characters\n", disk);
    }
    var g := GenerateKeys(content[0], content[1], draws);
    o := EncryptWithKeys(disk, content, output, key, g);
    forall g' | KeyGenOf(g', content[0], content[1], draws)
      ensures g' == g
    {
      KeyGenUnique(g', g, content[0], content[1], draws);
    }
    EncryptedWithFailure(disk, content, output, key, g, o);
    if o.Exited? && o.code == 0 {
      EncryptedWithSuccess(disk, content, output, key, g, draws, o);
    }
  }

  // ---------------------------------------------------------------------
  // decrypt_file

  /** The values `fscanf` converts from the key file at `key`, up to the
      first directive that fails. */
  function KeyScan(disk: Disk, key: string): seq<int>
    requires key in disk.files
  {
    Scan(KeyFileFormat(), Text(disk.files[key]))
  }

  /** The key record in the file at `key`, when it exists and parses. */
  function KeyAt(disk: Disk, key: string): Option<KeyRecord> {
    if key in disk.files then ParseKeyFile(Text(disk.files[key])) else None
  }

  /** Every value read from the key file fits the variable it is read
      into (`%lld` into `long long`, `%d` into `int`). */
  predicate KeyFitsTypes(k: KeyRecord) {
    InLong(k.p) && InLong(k.q) && InLong(k.n) && InLong(k.e) && InLong(k.d) && InInt(k.length)
  }

  /** Every value converted so far fits its variable: the first five are
      `long long`, the sixth (`length`) is an `int`. A value that does
      not fit makes the `fscanf` call undefined, whatever comes after. */
  predicate KeyScanFits(vs: seq<int>) {
    forall i :: 0 <= i < |vs| ==> if i < 5 then InLong(vs[i]) else InInt(vs[i])
  }

  /** For a complete key file the two range conditions agree. */
  lemma KeyFitsScanned(k: KeyRecord)
    ensures KeyScanFits(KeyValues(k)) <==> KeyFitsTypes(k)
  {
    var vs := KeyValues(k);
    assert vs[0] == k.p && vs[1] == k.q && vs[2] == k.n;
    assert vs[3] == k.e && vs[4] == k.d && vs[5] == k.length;
  }

  /** Every ciphertext value converted fits a `long long`. */
  predicate AllInLong(vs: seq<int>) {
    forall i :: 0 <= i < |vs| ==> InLong(vs[i])
  }

  function DecryptReport(length: int): string {
    "Decryption successful!\nDecrypted " + Signed(length) + " characters\n"
  }

  /** The outcome of `decrypt_file` once the key file has been read as `k`:
      the error for a missing input or a negative length; undefined
      behaviour as soon as a ciphertext value does not fit a `long long`;
      the error for a ciphertext that does not scan; undefined behaviour
      when `decrypt_string`'s `length + 1` overflows an `int` or when
      `mod_exp` is undefined on some value; then the error for an
      output that cannot be created, or the decrypted bytes written. */
  predicate DecryptedWith(disk: Disk, input: string, output: string, k: KeyRecord, o: Outcome) {
    && (input !in disk.files ==> o == Exited(1, "Error: Cannot open input file '" + input + "'\n", disk))
    && (input in disk.files && k.length < 0 ==> o == Exited(1, "Error: Memory allocation failed\n", disk))
    && (input in disk.files && k.length >= 0 ==>
          var scan := ScanCiphertext(Text(disk.files[input]), k.length);
          && (!AllInLong(scan.values) ==> o.Undefined?)
          && (AllInLong(scan.values) && scan.Stopped?
              ==> o == Exited(1, "Error: Invalid encrypted file format\n", disk))
          && (AllInLong(scan.values) && scan.Complete? && k.length == INT_MAX ==> o.Undefined?)
          && (AllInLong(scan.values) && scan.Complete? && k.length < INT_MAX
              && !DecryptionDefined(scan.values, k.n)
              ==> o.Undefined?)
          && (AllInLong(scan.values) && scan.Complete? && k.length < INT_MAX
              && DecryptionDefined(scan.values, k.n) && output in disk.readOnly
              ==> o == Exited(1, "Error: Cannot create output file '" + output + "'\n", disk))
          && (AllInLong(scan.values) && scan.Complete? && k.length < INT_MAX
              && DecryptionDefined(scan.values, k.n) && output !in disk.readOnly
              ==> o == Exited(0, DecryptReport(k.length), Write(disk, output, Decryption(scan.values, k.d, k.n)))))
  }

  /** Lines 312-356 of `decrypt_file`, after the key file has been read. */
  method DecryptWithKey(disk: Disk, input: string, output: string, k: KeyRecord) returns (o: Outcome)
    requires KeyFitsTypes(k)
    ensures DecryptedWith(disk, input, output, k, o)
  {
    if input !in disk.files {
      return Exited(1, "Error: Cannot open input file '" + input + "'\n", disk);
    }
    if k.length < 0 {
      return Exited(1, "Error: Memory allocation failed\n", disk);
    }
    var scan := ScanCiphertext(Text(disk.files[input]), k.length);
    if !AllInLong(scan.values) {
      // `%lld` met a value beyond `long long`
      return Undefined;
    }
    if scan.Stopped? {
      return Exited(1, "Error: Invalid encrypted file format\n", disk);
    }
    if k.length == INT_MAX {
      // `decrypt_string` sizes its buffer with `length + 1`
      return Undefined;
    }
    var values := scan.values;
    if !DecryptionDefined(values, k.n) {
      return Undefined;
    }
    assert values[..k.length] == values;
    var decrypted := DecryptString(values, k.length, k.d, k.n);
    if output in disk.readOnly {
      return Exited(1, "Error: Cannot create output file '" + output + "'\n", disk);
    }
    o := Exited(0, DecryptReport(k.length), Write(disk, output, decrypted));
  }

  /** The outcome of `decrypt_file`, for every key file. */
  predicate DecryptOutcome(disk: Disk, input: string, output: string, key: string, o: Outcome) {
    && (key !in disk.files ==> o == Exited(1, "Error: Cannot open key file '" + key + "'\n", disk))
    && (key in disk.files && !KeyScanFits(KeyScan(disk, key)) ==> o.Undefined?)
    && (key in disk.files && KeyScanFits(KeyScan(disk, key)) && KeyAt(disk, key).None?
        ==> o == Exited(1, "Error: Invalid key file format\n", disk))
    && (KeyAt(disk, key).Some? && KeyFitsTypes(KeyAt(disk, key).value)
        ==> DecryptedWith(disk, input, output, KeyAt(disk, key).value, o))
  }

  method DecryptFile(disk: Disk, input: string, output: string, key: string) returns (o: Outcome)
    ensures DecryptOutcome(disk, input, output, key, o)
    ensures KeyAt(disk, key).Some? && !KeyFitsTypes(KeyAt(disk, key).value) ==> o.Undefined?
  {
    if key !in disk.files {
      return Exited(1, "Error: Cannot open key file '" + key + "'\n", disk);
    }
    var scanned := KeyScan(disk, key);
    if !KeyScanFits(scanned) {
      // `fscanf` converted a value its variable cannot hold
      return Undefined;
    }
    var parsed := RecordOf(scanned);
    if parsed.None? {
      return Exited(1, "Error: Invalid key file format\n", disk);
    }
    var k := parsed.value;
    KeyFitsScanned(k);
    o := DecryptWithKey(disk, input, output, k);
  }

  // ---------------------------------------------------------------------
  // main

  datatype Command =
    | Usage
    | Encrypt(input: string, output: string, key: string)
    | Decrypt(input: string, output: string, key: string)
    | Unknown(name: string)

  /** How `main` reads its argument vector (program name first). */
  function Dispatch(argv: seq<string>): Command {
    if |argv| != 5 then Usage
    else if argv[1] == "encrypt" then Encrypt(argv[2], argv[3], argv[4])
    else if argv[1] == "decrypt" then Decrypt(argv[2], argv[3], argv[4])
    else Unknown(argv[1])
  }

  method EngineMain(argv: seq<string>, disk: Disk, draws: Draws) returns (o: Outcome)
    ensures |argv| != 5 ==> o == Exited(1, "", disk)
    ensures |argv| == 5 && argv[1] != "encrypt" && argv[1] != "decrypt"
      ==> o == Exited(1, "Error: Unknown command '" + argv[1] + "'\n", disk)
    ensures Dispatch(argv).Encrypt? ==> EncryptOutcome(disk, argv[2], argv[3], argv[4], draws, o)
    ensures Dispatch(argv).Decrypt? ==> DecryptOutcome(disk, argv[2], argv[3], argv[4], o)
    ensures o.Exited? ==> o.code == 0 || o.code == 1
    ensures o.Undefined? ==> Dispatch(argv).Encrypt? || Dispatch(argv).Decrypt?
    ensures o.Exited? && o.code == 0 ==> Dispatch(argv).Encrypt? || Dispatch(argv).Decrypt?
    ensures o.Exited? && o.code == 1 && Dispatch(argv).Encrypt? ==> SameExcept(disk, o.disk, {argv[3]})
    ensures o.Exited? && o.code == 0 && Dispatch(argv).Encrypt? ==>
      && argv[2] in disk.files && |disk.files[argv[2]]| >= 2
      && EncryptSucceeded(disk, disk.files[argv[2]], argv[3], argv[4], draws, o)
      && KeyAt(o.disk, argv[4]).Some?
  {
    match Dispatch(argv)
    case Usage =>
      o := Exited(1, "", disk);
    case Encrypt(input, output, key) =>
      o := EncryptFile(disk, input, output, key, draws);
    case Decrypt(input, output, key) =>
      o := DecryptFile(disk, input, output, key);
      DecryptExitCodes(disk, input, output, key, o);
    case Unknown(name) =>
      o := Exited(1, "Error: Unknown command '" + name + "'\n", disk);
  }

  /** `decrypt_file` exits with 0 or 1. */
  lemma DecryptExitCodes(disk: Disk, input: string, output: string, key: string, o: Outcome)
    requires DecryptOutcome(disk, input, output, key, o)
    requires KeyAt(disk, key).Some? && !KeyFitsTypes(KeyAt(disk, key).value) ==> o.Undefined?
    ensures o.Exited? ==> o.code == 0 || o.code == 1
  {
    if key in disk.files && KeyAt(disk, key).Some? && KeyFitsTypes(KeyAt(disk, key).value) {
      var k := KeyAt(disk, key).value;
      if input in disk.files && k.length >= 0 {
        var scan := ScanCiphertext(Text(disk.files[input]), k.length);
        if scan.Complete? && AllInLong(scan.values) && k.length < INT_MAX
           && DecryptionDefined(scan.values, k.n)
        {
          assert o.Exited?;
        }
      }
    }
  }

  /** The key a successful encryption writes fits `decrypt_file`'s
      variables, but the first `%lld` on the ciphertext written with it
      swallows every digit, and the second meets the end of the file. */
  lemma WrittenCiphertextRejected(k: KeyRecord, content: seq<Byte>, draws: Draws)
    requires |content| >= 2 && GoodKey(k, content, draws) && k.length >= 2
    ensures KeyFitsTypes(k)
    ensures var text := CiphertextText(Encryption(content, k.e, k.n));
      ScanCiphertext(text, k.length) == Stopped([Value(text)])
  {
    KeyRanges(k.p, k.q);
    var values := Encryption(content, k.e, k.n);
    forall i | 0 <= i < |values|
      ensures values[i] >= 0
    {
      PowNonnegative(content[i], k.e);
    }
    CiphertextUnreadable(values);
  }

  /** `decrypt_file` on a ciphertext whose first `%lld` converts `v` and
      whose second fails. */
  lemma DecryptStopsAfterOne(disk: Disk, input: string, output: string, key: string,
                             k: KeyRecord, v: int, o: Outcome)
    requires DecryptOutcome(disk, input, output, key, o)
    requires KeyAt(disk, key) == Some(k) && KeyFitsTypes(k) && k.length >= 0
    requires input in disk.files && ScanCiphertext(Text(disk.files[input]), k.length) == Stopped([v])
    ensures o == if InLong(v) then Exited(1, "Error: Invalid encrypted file format\n", disk) else Undefined
  {
    assert DecryptedWith(disk, input, output, k, o);
    ScanStopped(disk, input, output, k, v, o);
  }

  lemma ScanStopped(disk: Disk, input: string, output: string, k: KeyRecord, v: int, o: Outcome)
    requires DecryptedWith(disk, input, output, k, o)
    requires k.length >= 0
    requires input in disk.files && ScanCiphertext(Text(disk.files[input]), k.length) == Stopped([v])
    ensures o == if InLong(v) then Exited(1, "Error: Invalid encrypted file format\n", disk) else Undefined
  {
    var scan := ScanCiphertext(Text(disk.files[input]), k.length);
    assert scan.values == [v];
    if InLong(v) {
      assert AllInLong(scan.values);
    } else {
      assert !InLong(scan.values[0]);
    }
  }

  /** `decrypt` right after a successful `encrypt` of two or more
      characters never succeeds: it rejects the ciphertext when the
      digits written run together into a number that fits a
      `long long`, and is undefined otherwise. */
  method EncryptThenDecrypt(disk: Disk, input: string, encrypted: string, key: string,
                            decrypted: string, draws: Draws)
    returns (enc: Outcome, dec: Outcome)
    ensures enc.Exited? && enc.code == 0 && encrypted != key
      && input in disk.files && CStrLen(disk.files[input]) >= 2
      ==> && encrypted in enc.disk.files
          && dec == if InLong(Value(Text(enc.disk.files[encrypted])))
                    then Exited(1, "Error: Invalid encrypted file format\n", enc.disk)
                    else Undefined
  {
    enc := EncryptFile(disk, input, encrypted, key, draws);
    if enc.Undefined? {
      return enc, Undefined;
    }
    dec := DecryptFile(enc.disk, encrypted, decrypted, key);
    if enc.code == 0 && encrypted != key && input in disk.files && CStrLen(disk.files[input]) >= 2 {
      var content := disk.files[input];
      var k := ParseKeyFile(Text(enc.disk.files[key])).value;
      WrittenCiphertextRejected(k, content, draws);
      var text := Text(enc.disk.files[encrypted]);
      assert text == CiphertextText(Encryption(content, k.e, k.n));
      DecryptStopsAfterOne(enc.disk, encrypted, decrypted, key, k, Value(text), dec);
    }
  }
}

=== FILE: formats.dfy ===
/**
  The two text files the engine writes (src/rsa_encrypt.c:256-283) and
  reads back (src/rsa_encrypt.c:304-334): the key file, six `name=value`
  lines written with `fprintf` and read with one `fscanf` format; and the
  ciphertext file, the encrypted values written with `%lld` one after the
  other and read with `%lld` followed by a one-character `%c` skip.
*/
module Formats {
  import opened Wrappers
  import opened Decimal
  import opened Scanf

  // ---------------------------------------------------------------------
  // Key file

  datatype KeyRecord = KeyRecord(p: int, q: int, n: int, e: int, d: int, length: int)

  /** One `fprintf(keyfile, "<name>=%lld\n", v)`. */
  function FieldText(name: string, v: int): string {
    name + "=" + Signed(v) + "\n"
  }

  /** Consecutive `<name>=%lld\n` lines, one per name and value. */
  function FieldsText(names: seq<string>, values: seq<int>): string
    requires |names| == |values|
  {
    if names == [] then "" else FieldText(names[0], values[0]) + FieldsText(names[1..], values[1..])
  }

  /** The directives of consecutive `<name>=%lld\n` lines in a format. */
  function FieldsDirectives(names: seq<string>): seq<Directive> {
    if names == [] then [] else FieldDirectives(names[0]) + FieldsDirectives(names[1..])
  }

  /** The directives of `<name>=%lld\n` in a `fscanf` format. */
  function FieldDirectives(name: string): seq<Directive> {
    Literals(name + "=") + [Integer, Whitespace]
  }

  /** The key file's field names, in the order they are written and read. */
  const KeyNames: seq<string> := ["p", "q", "n", "e", "d", "length"]

  function KeyValues(k: KeyRecord): seq<int> {
    [k.p, k.q, k.n, k.e, k.d, k.length]
  }

  /** The key file written by `encrypt_file`:
      `p=..\nq=..\nn=..\ne=..\nd=..\nlength=..\n`. */
  function FormatKeyFile(k: KeyRecord): string {
    FieldsText(KeyNames, KeyValues(k))
  }

  /** The format `"p=%lld\nq=%lld\nn=%lld\ne=%lld\nd=%lld\nlength=%d\n"`;
      `%d` and `%lld` scan alike. */
  function KeyFileFormat(): seq<Directive> {
    FieldsDirectives(KeyNames)
  }

  /** `decrypt_file`'s reading of the key file: all six conversions must
      succeed. */
  function ParseKeyFile(text: string): (r: Option<KeyRecord>)
    ensures r.Some? <==> |Scan(KeyFileFormat(), text)| == 6
    ensures r.Some? ==> KeyValues(r.value) == Scan(KeyFileFormat(), text)
  {
    RecordOf(Scan(KeyFileFormat(), text))
  }

  /** The record of six scanned values, in the order of `KeyNames`. */
  function RecordOf(vs: seq<int>): (r: Option<KeyRecord>)
    ensures r.Some? <==> |vs| == 6
    ensures r.Some? ==> KeyValues(r.value) == vs
  {
    if |vs| == 6 then Some(KeyRecord(vs[0], vs[1], vs[2], vs[3], vs[4], vs[5])) else None
  }

  /** Scanning one field consumes its text and the white space after it. */
  lemma ScanField(name: string, v: int, ds: seq<Directive>, next: string)
    ensures Scan(FieldDirectives(name) + ds, FieldText(name, v) + next)
         == [v] + Scan(ds, SkipSpace(next))
  {
    var lit := name + "=";
    var rest := Signed(v) + ("\n" + next);
    var ds' := [Integer, Whitespace] + ds;
    assert FieldDirectives(name) + ds == Literals(lit) + ds';
    assert FieldText(name, v) + next == lit + rest;
    ScanLiterals(lit, ds', rest);
    ScanNumberLine(v, ds, next);
  }

  /** `%lld` then white space over a number and its line break. */
  lemma ScanNumberLine(v: int, ds: seq<Directive>, next: string)
    ensures Scan([Integer, Whitespace] + ds, Signed(v) + ("\n" + next)) == [v] + Scan(ds, SkipSpace(next))
  {
    var line := "\n" + next;
    ScanSigned(v, line);
    ScanIntegerThenSpace(ds, Signed(v) + line, v, line);
    assert SkipSpace(line) == SkipSpace(next);
  }

  /** Names that do not start with white space, so that the white space
      after one line stops at the next. */
  predicate GoodNames(names: seq<string>) {
    forall i :: 0 <= i < |names| ==> names[i] != [] && !IsSpace(names[i][0])
  }

  /** Scanning consecutive written fields recovers their values, whatever
      follows the last line. */
  lemma {:induction false} ScanFields(names: seq<string>, values: seq<int>, trailer: string)
    requires |names| == |values| && GoodNames(names)
    ensures Scan(FieldsDirectives(names), FieldsText(names, values) + trailer) == values
  {
    if names != [] {
      var next := FieldsText(names[1..], values[1..]) + trailer;
      assert FieldsText(names, values) + trailer == FieldText(names[0], values[0]) + next;
      ScanField(names[0], values[0], FieldsDirectives(names[1..]), next);
      ScanFields(names[1..], values[1..], trailer);
      if names[1..] != [] {
        assert next == FieldText(names[1], values[1]) + FieldsText(names[2..], values[2..]) + trailer;
        assert next[0] == names[1][0];
        SkipSpaceNoop(next);
      }
      assert [values[0]] + values[1..] == values;
    }
  }

  /** Reading back a written key file recovers all six values, whatever
      follows the last line. */
  lemma ParseFormatKeyFile(k: KeyRecord, trailer: string)
    ensures ParseKeyFile(FormatKeyFile(k) + trailer) == Some(k)
  {
    ScanFields(KeyNames, KeyValues(k), trailer);
  }

  // ---------------------------------------------------------------------
  // Ciphertext file

  /** `fprintf(outfile, "%lld", encrypted[i])` for every value, with the
      separator commented out. */
  function CiphertextText(values: seq<int>): string {
    if values == [] then "" else Signed(values[0]) + CiphertextText(values[1..])
  }

  /** Drops the one character a `%c` directive consumes, if any. */
  function SkipChar(s: string): string {
    if s == [] then s else s[1..]
  }

  /** How `decrypt_file`'s reading loop ends: with all the values it was
      asked for, or at a `%lld` that failed, after the values before it
      were stored. */
  datatype CipherScan = Complete(values: seq<int>) | Stopped(values: seq<int>)

  /** `decrypt_file`'s loop: `%lld` for each of `count` values, and one
      `%c` between consecutive values. */
  function ScanCiphertext(text: string, count: nat): (r: CipherScan)
    ensures r.Complete? ==> |r.values| == count
    ensures r.Stopped? ==> |r.values| < count
    decreases count
  {
    if count == 0 then Complete([])
    else match ScanInteger(text)
      case None => Stopped([])
      case Some(r) =>
        var after := if count > 1 then SkipChar(r.1) else r.1;
        var rest := ScanCiphertext(after, count - 1);
        rest.(values := [r.0] + rest.values)
  }

  lemma {:induction false} CiphertextDigits(values: seq<int>)
    requires forall i :: 0 <= i < |values| ==> values[i] >= 0
    ensures AllDigits(CiphertextText(values))
    ensures values != [] ==> CiphertextText(values) != []
  {
    if values != [] {
      CiphertextDigits(values[1..]);
    }
  }

  /** The written values run together into one digit string, which the
      first `%lld` swallows whole; the second `%lld` then meets the end of
      the file. So the engine cannot read back the ciphertext it writes for
      two or more characters. */
  lemma CiphertextUnreadable(values: seq<int>)
    requires |values| >= 2
    requires forall i :: 0 <= i < |values| ==> values[i] >= 0
    ensures ScanCiphertext(CiphertextText(values), |values|) == Stopped([Value(CiphertextText(values))])
  {
    CiphertextDigits(values);
    DigitRunStops(CiphertextText(values), |values|);
  }

  /** A lone run of digits feeds one `%lld`; the next meets the end. */
  lemma DigitRunStops(text: string, count: nat)
    requires text != [] && AllDigits(text) && count >= 2
    ensures ScanCiphertext(text, count) == Stopped([Value(text)])
  {
    assert ScanInteger(text) == Some((Value(text), "")) by {
      ScanDigits(text, "");
      assert text + "" == text;
    }
    EndStops(count - 1);
    assert [Value(text)] + [] == [Value(text)];
  }

  /** At the end of the text the next `%lld` fails at once. */
  lemma EndStops(count: nat)
    requires count >= 1
    ensures ScanCiphertext("", count) == Stopped([])
  {
    assert ScanInteger("") == None;
  }

  /** Two different plaintext encryptions that write the same file. */
  lemma CiphertextAmbiguous()
    ensures CiphertextText([1, 23]) == CiphertextText([12, 3]) == "123"
  {
  }

  /** The writer with the separator `decrypt_file` expects: a comma
      between consecutive values. */
  function CiphertextTextWithCommas(values: seq<int>): string {
    if values == [] then ""
    else if |values| == 1 then Signed(values[0])
    else Signed(values[0]) + "," + CiphertextTextWithCommas(values[1..])
  }

  /** One `%lld` that succeeds, followed by the rest of the loop. */
  lemma ScanCiphertextFirst(text: string, count: nat, v: int, after: string, vs: seq<int>)
    requires count >= 1 && ScanInteger(text) == Some((v, after))
    requires ScanCiphertext(if count > 1 then SkipChar(after) else after, count - 1) == Complete(vs)
    ensures ScanCiphertext(text, count) == Complete([v] + vs)
  {
  }

  /** With the separator restored, `decrypt_file`'s loop reads back exactly
      the values written. */
  lemma {:induction false} CiphertextWithCommasRoundTrip(values: seq<int>)
    ensures ScanCiphertext(CiphertextTextWithCommas(values), |values|) == Complete(values)
  {
    if |values| == 1 {
      LastValueRoundTrip(values[0]);
      assert values == [values[0]];
    } else if |values| > 1 {
      CiphertextWithCommasRoundTrip(values[1..]);
      CommaStep(values[0], values[1..]);
      assert [values[0]] + values[1..] == values;
    }
  }

  lemma LastValueRoundTrip(v: int)
    ensures ScanCiphertext(CiphertextTextWithCommas([v]), 1) == Complete([v])
  {
    ScanSigned(v, "");
    assert Signed(v) + "" == Signed(v);
    assert CiphertextTextWithCommas([v]) == Signed(v);
    assert ScanCiphertext("", 0) == Complete([]);
    ScanCiphertextFirst(Signed(v), 1, v, "", []);
    assert [v] + [] == [v];
  }

  lemma CommaStep(v: int, tail: seq<int>)
    requires tail != []
    requires ScanCiphertext(CiphertextTextWithCommas(tail), |tail|) == Complete(tail)
    ensures ScanCiphertext(CiphertextTextWithCommas([v] + tail), |tail| + 1) == Complete([v] + tail)
  {
    var rest := CiphertextTextWithCommas(tail);
    CommasCons(v, tail);
    ScanSigned(v, "," + rest);
    assert SkipChar("," + rest) == rest;
    ScanCiphertextFirst(Signed(v) + ("," + rest), |tail| + 1, v, "," + rest, tail);
  }

  lemma CommasCons(v: int, tail: seq<int>)
    requires tail != []
    ensures CiphertextTextWithCommas([v] + tail) == Signed(v) + ("," + CiphertextTextWithCommas(tail))
  {
    assert ([v] + tail)[1..] == tail;
  }
}

=== FILE: health.dfy ===
/**
  The GUI's health probe of the engine (src/gui.py:147-176) and the rule
  that enables the encrypt button (src/gui.py:178-191). The probe's
  verdict is shown as a label text, and the button rule looks for the
  check mark in that text rather than at the verdict itself.
*/
module Health {
  import opened Host

  /** What the executable status label says. */
  datatype Readiness =
    | Checking      // before the first probe
    | NoExecutable  // the path is empty
    | NotFound      // the path is not a regular file
    | Ready         // the probe exited with 0 or 1
    | TestFailed    // the probe exited with another status
    | TimedOut      // the probe ran past its time limit
    | Faulted       // the probe raised another exception

  const ReadyMark: char := '✅'
  const CrossMark: char := '❌'

  /** The label text of each verdict. */
  function Label(r: Readiness): string {
    match r
    case Checking => "Checking executable..."
    case NoExecutable => [CrossMark] + " No executable specified"
    case NotFound => [CrossMark] + " Executable not found"
    case Ready => [ReadyMark] + " Executable ready"
    case TestFailed => [CrossMark] + " Executable error"
    case TimedOut => [CrossMark] + " Executable timeout"
    case Faulted => [CrossMark] + " Executable error"
  }

  /** Python's `ch in text`. */
  predicate Contains(text: string, ch: char) {
    exists i :: 0 <= i < |text| && text[i] == ch
  }

  /** Only the label of a ready engine carries the check mark, so testing
      the label text is the same as testing the verdict. */
  lemma ReadyMarkOnlyWhenReady(r: Readiness)
    ensures Contains(Label(r), ReadyMark) <==> r == Ready
  {
    match r
    case Checking => NoMarkInPlainText(Label(r));
    case NoExecutable => CrossedText(" No executable specified");
    case NotFound => CrossedText(" Executable not found");
    case Ready => assert Label(r)[0] == ReadyMark;
    case TestFailed => CrossedText(" Executable error");
    case TimedOut => CrossedText(" Executable timeout");
    case Faulted => CrossedText(" Executable error");
  }

  predicate PlainText(s: string) {
    forall i :: 0 <= i < |s| ==> s[i] < '\U{80}'
  }

  lemma NoMarkInPlainText(s: string)
    requires PlainText(s)
    ensures !Contains(s, ReadyMark)
  {
  }

  lemma CrossedText(s: string)
    requires PlainText(s)
    ensures !Contains([CrossMark] + s, ReadyMark)
  {
    var t := [CrossMark] + s;
    forall i | 0 <= i < |t| ensures t[i] != ReadyMark {
      if i > 0 { assert t[i] == s[i - 1]; }
    }
  }

  /** The outcome of one probe: the verdict, the lines logged and the
      argument vectors of the processes started. */
  datatype Probe = Probe(readiness: Readiness, log: seq<string>, spawned: seq<seq<string>>)

  /** The classification of `check_executable`. `run` is what running the
      executable with no arguments would return; it is used only when the
      executable is actually started. */
  function ProbeExecutable(fs: Fs, exe: string, run: ProcessResult): (p: Probe)
    ensures p.spawned == [] <==> exe == "" || !IsFile(fs, exe)
    ensures p.spawned != [] ==> p.spawned == [[exe]]
    ensures exe == "" ==> p == Probe(NoExecutable, [], [])
    ensures exe != "" && !IsFile(fs, exe) ==>
      p == Probe(NotFound, ["Error: Executable '" + exe + "' not found"], [])
    ensures p.readiness == Ready <==> p.spawned != [] && run.Exit? && (run.code == 0 || run.code == 1)
    ensures p.readiness == TestFailed <==> p.spawned != [] && run.Exit? && run.code != 0 && run.code != 1
    ensures p.readiness == TimedOut <==> p.spawned != [] && run.Timeout?
    ensures p.readiness == Faulted <==> p.spawned != [] && run.Fault?
    ensures p.readiness != Checking && |p.log| <= 1
  {
    if exe == "" then Probe(NoExecutable, [], [])
    else if !IsFile(fs, exe) then Probe(NotFound, ["Error: Executable '" + exe + "' not found"], [])
    else
      var spawned := [[exe]];
      match run
      case Exit(code, _, _) =>
        if code == 0 || code == 1 then Probe(Ready, ["✓ C executable found and runnable"], spawned)
        else Probe(TestFailed, ["Error: Executable test failed (nonzero exit code)"], spawned)
      case Timeout => Probe(TimedOut, ["Error: Executable test timed out"], spawned)
      case Fault(message) => Probe(Faulted, ["Error testing executable: " + message], spawned)
  }

  /** The encrypt button and the status line. */
  datatype Controls = Controls(enabled: bool, status: string)

  /** `bool(path and os.path.isfile(path))`. */
  predicate FileSelected(fs: Fs, input: string) {
    input != "" && IsFile(fs, input)
  }

  /** `update_encrypt_button_state`, reading the label text as the source
      does. */
  function ButtonState(exeLabel: string, fs: Fs, input: string): (c: Controls)
    ensures c.enabled <==> Contains(exeLabel, ReadyMark) && FileSelected(fs, input)
    ensures c.enabled ==> c.status == "Ready to encrypt!"
    ensures !Contains(exeLabel, ReadyMark) ==> c.status == "Waiting for executable..."
    ensures Contains(exeLabel, ReadyMark) && !FileSelected(fs, input) ==>
      c.status == "Please select a file to encrypt"
  {
    var exeReady := Contains(exeLabel, ReadyMark);
    var fileSelected := FileSelected(fs, input);
    if exeReady && fileSelected then Controls(true, "Ready to encrypt!")
    else if !exeReady then Controls(false, "Waiting for executable...")
    else Controls(false, "Please select a file to encrypt")
  }

  /** On the labels the probe can produce, the button is enabled exactly
      when the engine is ready and an existing input file is selected. */
  lemma ButtonFollowsReadiness(r: Readiness, fs: Fs, input: string)
    ensures ButtonState(Label(r), fs, input).enabled <==> r == Ready && FileSelected(fs, input)
  {
    ReadyMarkOnlyWhenReady(r);
  }
}

=== FILE: host.dfy ===
/**
  What the GUI observes of its host: the regular files and directories
  that exist, the result of a child process, and the result of reading a
  text file. Python's `str.strip()` is here too, since the GUI applies it
  to everything a child process prints.
*/
module Host {

  /** The file system as the GUI queries it: `os.path.isfile` holds for
      `files`, `os.path.exists` for `files` and `dirs`. */
  datatype Fs = Fs(files: set<string>, dirs: set<string>)

  predicate IsFile(fs: Fs, path: string) {
    path in fs.files
  }

  predicate Exists(fs: Fs, path: string) {
    path in fs.files || path in fs.dirs
  }

  /** How `subprocess.run` ends: the child's exit status and captured
      output, `TimeoutExpired`, or another exception with its `str()`. */
  datatype ProcessResult =
    | Exit(code: int, stdout: string, stderr: string)
    | Timeout
    | Fault(message: string)

  /** How `open(path).read()` ends: the text, or an exception's `str()`. */
  datatype ReadResult = Contents(text: string) | ReadFailed(message: string)

  /** The white space `str.strip()` removes (the ASCII and Latin-1 part of
      `str.isspace`). */
  predicate IsPySpace(c: char) {
    c == ' ' || c == '\t' || c == '\n' || c == '\r' || c == '\U{B}' || c == '\U{C}'
    || c == '\U{1C}' || c == '\U{1D}' || c == '\U{1E}' || c == '\U{1F}'
    || c == '\U{85}' || c == '\U{A0}'
  }

  function StripLeft(s: string): (r: string)
    ensures |r| <= |s| && r == s[|s| - |r|..]
    ensures r == [] || !IsPySpace(r[0])
    ensures forall i :: 0 <= i < |s| - |r| ==> IsPySpace(s[i])
  {
    if s != [] && IsPySpace(s[0]) then
      var r := StripLeft(s[1..]);
      assert s[|s| - |r|..] == s[1..][|s| - 1 - |r|..];
      assert forall i :: 1 <= i < |s| - |r| ==> s[i] == s[1..][i - 1];
      r
    else s
  }

  function StripRight(s: string): (r: string)
    ensures |r| <= |s| && r == s[..|r|]
    ensures r == [] || !IsPySpace(r[|r| - 1])
    ensures forall i :: |r| <= i < |s| ==> IsPySpace(s[i])
  {
    if s != [] && IsPySpace(s[|s| - 1]) then
      var r := StripRight(s[..|s| - 1]);
      assert s[..|r|] == s[..|s| - 1][..|r|];
      assert forall i :: |r| <= i < |s| - 1 ==> s[i] == s[..|s| - 1][i];
      r
    else s
  }

  /** `str.strip()`. */
  function Strip(s: string): (r: string)
    ensures r == [] || (!IsPySpace(r[0]) && !IsPySpace(r[|r| - 1]))
  {
    StripRight(StripLeft(s))
  }

  /** What `strip` keeps is an infix of its argument with only white
      space around it. */
  lemma StripTrims(s: string)
    ensures exists i :: TrimmedAt(s, Strip(s), i)
  {
    var left := StripLeft(s);
    var r := StripRight(left);
    var i := |s| - |left|;
    assert left == s[i..];
    assert r == left[..|r|];
    forall j | i + |r| <= j < |s| ensures IsPySpace(s[j]) {
      assert s[j] == left[j - i];
    }
    assert s[i..i + |r|] == r;
    assert r == Strip(s);
    assert TrimmedAt(s, Strip(s), i);
  }

  /** `r` is `s` with white space only removed before index `i` and after
      `r` itself. */
  predicate TrimmedAt(s: string, r: string, i: int) {
    0 <= i <= |s| - |r| && s[i..i + |r|] == r
    && (forall j :: 0 <= j < i ==> IsPySpace(s[j]))
    && (forall j :: i + |r| <= j < |s| ==> IsPySpace(s[j]))
  }

  /** Stripping twice strips nothing more. */
  lemma StripIdempotent(s: string)
    ensures Strip(Strip(s)) == Strip(s)
  {
    var r := Strip(s);
    if r != [] {
      assert StripLeft(r) == r;
      assert StripRight(r) == r;
    }
  }
}

=== FILE: integration.dfy ===
/**
  The GUI driving the modelled engine: the engine's exit status and
  standard output become the GUI's process results (the engine writes
  nothing on standard error), and the key file the GUI reads back is the
  one the engine left on disk.
*/
module Integration {
  import opened Wrappers
  import opened Host
  import opened Naming
  import opened Engine
  import opened Health
  import opened Session

  /** The health probe run against the engine: started without
      arguments, the engine exits with status 1, which the probe accepts,
      so an existing engine is always found ready. */
  method ProbeEngine(fs: Fs, exe: string, disk: Disk, draws: Draws) returns (p: Probe)
    ensures FileSelected(fs, exe) ==> p.readiness == Ready && p.spawned == [[exe]]
    ensures !FileSelected(fs, exe) ==> p.spawned == []
  {
    var o := EngineMain([exe], disk, draws);
    p := ProbeExecutable(fs, exe, Exit(o.code, o.stdout, ""));
  }

  /** What `open(path).read()` returns on the engine's disk; `missing` is
      the error text for an absent file. */
  function ReadBack(disk: Disk, path: string, missing: string): ReadResult {
    if path in disk.files then Contents(Text(disk.files[path])) else ReadFailed(missing)
  }

  /** The engine called by the GUI on `argv`, and what the GUI then sees:
      the process result and the key file read back. */
  method RunEngine(argv: seq<string>, disk: Disk, draws: Draws, key: string,
                   crash: ProcessResult, missing: string)
    returns (o: Outcome, run: ProcessResult, read: ReadResult)
    requires Dispatch(argv).Encrypt? && Dispatch(argv).key == key
    ensures o.Exited? ==> run == Exit(o.code, o.stdout, "")
    ensures o.Exited? && o.code == 0 ==> KeyAt(o.disk, key).Some? && read.Contents?
    ensures o.Exited? ==> SameExcept(disk, o.disk, {argv[3], argv[4]})
  {
    o := EngineMain(argv, disk, draws);
    if o.Exited? && o.code == 1 {
      SameExceptWiden(disk, o.disk, {argv[3]}, {argv[3], argv[4]});
    }
    if o.Exited? {
      run := Exit(o.code, o.stdout, "");
      read := ReadBack(o.disk, key, missing);
    } else {
      run := crash;
      read := ReadFailed(missing);
    }
  }

  /** The GUI's encryption once the output paths are known. */
  method EncryptOnPaths(exe: string, input: string, enc: string, key: string, disk: Disk, draws: Draws,
                        crash: ProcessResult, missing: string)
    returns (o: Outcome, trace: seq<Effect>)
    requires enc != "" && key != ""
    ensures Dispatch(EncryptArgv(exe, input, enc, key)) == Encrypt(input, enc, key)
    ensures Spawns(trace) == [EncryptArgv(exe, input, enc, key)]
    ensures o.Exited? ==> Reads(trace) == if o.code == 0 then [key] else []
    ensures o.Exited? && o.code == 0 ==> KeyAt(o.disk, key).Some?
    ensures o.Exited? ==> SameExcept(disk, o.disk, {enc, key})
    ensures o.Exited? && enc !in disk.files && key !in disk.files ==>
      forall path :: path in disk.files ==> path in o.disk.files && o.disk.files[path] == disk.files[path]
  {
    var argv := EncryptArgv(exe, input, enc, key);
    assert Dispatch(argv) == Encrypt(input, enc, key);
    var run, read;
    o, run, read := RunEngine(argv, disk, draws, key, crash, missing);
    if o.Exited? && enc !in disk.files && key !in disk.files {
      SameExceptFresh(disk, o.disk, {enc, key});
    }
    trace := SpawnedTrace(exe, input, enc, key, run, read);
    SpawnedTraceViews(exe, input, enc, key, run, read);
  }

  /** One encryption from the GUI: the output paths are chosen, the engine
      runs on exactly those paths, and the GUI reacts to its result. A run
      whose C behaviour is undefined is reported to the GUI as `crash`.
      The GUI's view `fs` and the engine's `disk` are one file system:
      they hold the same regular files. Since the chosen paths are free,
      the engine then never changes a file that existed before. */
  method EncryptWithEngine(fs: Fs, exe: string, input: string, disk: Disk, draws: Draws,
                           crash: ProcessResult, missing: string)
    returns (paths: Option<(string, string)>, o: Option<Outcome>, trace: seq<Effect>)
    requires fs.files == disk.files.Keys
    ensures paths.None? <==> input == ""
    ensures o.None? <==> input == ""
    ensures paths.None? ==> Spawns(trace) == [] && Reads(trace) == []
    ensures paths.Some? ==>
      && Spawns(trace) == [EncryptArgv(exe, input, paths.value.0, paths.value.1)]
      && Dispatch(EncryptArgv(exe, input, paths.value.0, paths.value.1))
         == Encrypt(input, paths.value.0, paths.value.1)
    ensures paths.Some? && o.Some? && o.value.Exited? ==>
      Reads(trace) == if o.value.code == 0 then [paths.value.1] else []
    ensures paths.Some? && o.Some? && o.value.Exited? && o.value.code == 0 ==>
      KeyAt(o.value.disk, paths.value.1).Some?
    ensures paths.Some? ==> paths.value.0 !in disk.files && paths.value.1 !in disk.files
    ensures o.Some? && o.value.Exited? ==>
      forall path :: path in disk.files ==> path in o.value.disk.files && o.value.disk.files[path] == disk.files[path]
  {
    paths := GenerateOutputPaths(fs, input);
    if paths.None? {
      o := None;
      trace := EncryptionTrace(exe, input, paths, crash, ReadFailed(missing));
      TraceViews(exe, input, paths, crash, ReadFailed(missing));
    } else {
      assert paths.value.0 !in disk.files && paths.value.1 !in disk.files by {
        assert Free(fs, paths.value);
        assert !IsFile(fs, paths.value.0) && !IsFile(fs, paths.value.1);
      }
      var outcome;
      outcome, trace := EncryptOnPaths(exe, input, paths.value.0, paths.value.1, disk, draws, crash, missing);
      o := Some(outcome);
    }
  }
}

=== FILE: naming.dfy ===
/**
  How the GUI names the files the engine writes (src/gui.py:193-218):
  `<stem>_encrypted.enc` and `<stem>_keys.key` next to the input, and,
  when either exists, the first `_N` suffix under which neither does.
*/
module Naming {
  import opened Wrappers
  import opened CArith
  import opened Decimal
  import opened Host
  import opened Paths

  /** `basename(splitext(input)[0])`, the name the outputs are built on. */
  function Stem(input: string): string {
    Basename(Splitext(input).0)
  }

  /** The ciphertext path before any renaming. */
  function PlainEncrypted(input: string): string {
    Join(Dirname(input), Stem(input) + "_encrypted.enc")
  }

  /** The key path before any renaming. */
  function PlainKey(input: string): string {
    Join(Dirname(input), Stem(input) + "_keys.key")
  }

  /** `f"{splitext(original)[0]}_{n}{ext}"`. */
  function Numbered(original: string, n: nat, ext: string): string {
    Splitext(original).0 + "_" + Dec(n) + ext
  }

  /** The pair tried on the `n`-th renaming. */
  function NumberedPair(enc0: string, key0: string, n: nat): (string, string) {
    (Numbered(enc0, n, ".enc"), Numbered(key0, n, ".key"))
  }

  /** Neither path of the pair exists. */
  predicate Free(fs: Fs, pair: (string, string)) {
    !Exists(fs, pair.0) && !Exists(fs, pair.1)
  }

  /** `n` is the least suffix from 1 up whose pair is free. */
  predicate LeastFreeSuffix(fs: Fs, enc0: string, key0: string, n: nat) {
    n >= 1 && Free(fs, NumberedPair(enc0, key0, n))
    && forall m :: 1 <= m < n ==> !Free(fs, NumberedPair(enc0, key0, m))
  }

  /** The length of the longest path in a finite set. */
  ghost function MaxLen(paths: set<string>): (k: nat)
    ensures forall p :: p in paths ==> |p| <= k
  {
    if paths == {} then 0
    else
      var p :| p in paths;
      var rest := MaxLen(paths - {p});
      if |p| > rest then |p| else rest
  }

  /** A suffix with more digits than the longest existing path has
      characters yields a free pair: this bounds the search. */
  lemma SuffixBeyondBoundIsFree(fs: Fs, enc0: string, key0: string, n: nat)
    requires n >= Pow(10, MaxLen(fs.files + fs.dirs))
    ensures Free(fs, NumberedPair(enc0, key0, n))
  {
    var k := MaxLen(fs.files + fs.dirs);
    DecLongerThan(n, k);
  }

  /** The renaming loop: the given pair when it is free, else the pair
      with the least free suffix. */
  method FindFreePair(fs: Fs, enc0: string, key0: string) returns (pair: (string, string))
    ensures Free(fs, pair)
    ensures enc0 != "" && key0 != "" ==> pair.0 != "" && pair.1 != ""
    ensures Free(fs, (enc0, key0)) ==> pair == (enc0, key0)
    ensures !Free(fs, (enc0, key0)) ==>
      exists n :: LeastFreeSuffix(fs, enc0, key0, n) && pair == NumberedPair(enc0, key0, n)
  {
    pair := (enc0, key0);
    var counter := 1;
    ghost var bound := Pow(10, MaxLen(fs.files + fs.dirs));
    PowPositive(10, MaxLen(fs.files + fs.dirs));
    while Exists(fs, pair.0) || Exists(fs, pair.1)
      invariant 1 <= counter <= bound + 1
      invariant counter == 1 ==> pair == (enc0, key0)
      invariant enc0 != "" && key0 != "" ==> pair.0 != "" && pair.1 != ""
      invariant counter > 1 ==> !Free(fs, (enc0, key0)) && pair == NumberedPair(enc0, key0, counter - 1)
      invariant forall m :: 1 <= m < counter - 1 ==> !Free(fs, NumberedPair(enc0, key0, m))
      decreases bound + 1 - counter
    {
      if counter > 1 && counter - 1 >= bound {
        SuffixBeyondBoundIsFree(fs, enc0, key0, counter - 1);
        assert false;
      }
      pair := NumberedPair(enc0, key0, counter);
      counter := counter + 1;
    }
    if counter > 1 {
      assert LeastFreeSuffix(fs, enc0, key0, counter - 1);
    }
  }

  /** `generate_output_paths`: nothing for an empty input path; the plain
      pair when neither exists; otherwise the pair with the least suffix
      `N >= 1` under which neither exists, the same `N` on both and always
      applied to the plain names. */
  method GenerateOutputPaths(fs: Fs, input: string) returns (r: Option<(string, string)>)
    ensures r.None? <==> input == ""
    ensures r.Some? ==> Free(fs, r.value) && r.value.0 != "" && r.value.1 != ""
    ensures r.Some? && Free(fs, (PlainEncrypted(input), PlainKey(input))) ==>
      r.value == (PlainEncrypted(input), PlainKey(input))
    ensures r.Some? && !Free(fs, (PlainEncrypted(input), PlainKey(input))) ==>
      exists n :: LeastFreeSuffix(fs, PlainEncrypted(input), PlainKey(input), n)
        && r.value == NumberedPair(PlainEncrypted(input), PlainKey(input), n)
  {
    if input == "" {
      return None;
    }
    var pair := FindFreePair(fs, PlainEncrypted(input), PlainKey(input));
    return Some(pair);
  }

  /** The plain ciphertext path is a stem followed by `.enc`, and `splitext`
      splits it exactly there. */
  lemma SplitPlainEncrypted(input: string)
    ensures PlainEncrypted(input) == Join(Dirname(input), Stem(input) + "_encrypted") + ".enc"
    ensures Splitext(PlainEncrypted(input)).0 == Join(Dirname(input), Stem(input) + "_encrypted")
  {
    BasenameHasNoSlash(Splitext(input).0);
    SplitEncryptedName(Dirname(input), Stem(input));
  }

  lemma SplitEncryptedName(dir: string, stem: string)
    requires forall j :: 0 <= j < |stem| ==> stem[j] != '/'
    ensures Join(dir, stem + "_encrypted.enc") == Join(dir, stem + "_encrypted") + ".enc"
    ensures Splitext(Join(dir, stem + "_encrypted.enc")).0 == Join(dir, stem + "_encrypted")
  {
    var head := Join(dir, stem + "_encrypted");
    assert "_encrypted" + "." + "enc" == "_encrypted.enc";
    assert head + "." + "enc" == head + ".enc";
    SplitTagged(dir, stem, "_encrypted", "enc");
  }

  /** The plain key path is a stem followed by `.key`, and `splitext`
      splits it exactly there. */
  lemma SplitPlainKey(input: string)
    ensures PlainKey(input) == Join(Dirname(input), Stem(input) + "_keys") + ".key"
    ensures Splitext(PlainKey(input)).0 == Join(Dirname(input), Stem(input) + "_keys")
  {
    BasenameHasNoSlash(Splitext(input).0);
    SplitKeyName(Dirname(input), Stem(input));
  }

  lemma SplitKeyName(dir: string, stem: string)
    requires forall j :: 0 <= j < |stem| ==> stem[j] != '/'
    ensures Join(dir, stem + "_keys.key") == Join(dir, stem + "_keys") + ".key"
    ensures Splitext(Join(dir, stem + "_keys.key")).0 == Join(dir, stem + "_keys")
  {
    var head := Join(dir, stem + "_keys");
    assert "_keys" + "." + "key" == "_keys.key";
    assert head + "." + "key" == head + ".key";
    SplitTagged(dir, stem, "_keys", "key");
  }

  lemma SplitTagged(dir: string, stem: string, tag: string, ext: string)
    requires |tag| >= 2 && tag[0] == '_' && tag[1] != '.'
    requires forall j :: 0 <= j < |tag| ==> tag[j] != '/'
    requires forall j :: 0 <= j < |stem| ==> stem[j] != '/'
    requires forall j :: 0 <= j < |ext| ==> ext[j] != '.' && ext[j] != '/'
    ensures Join(dir, stem + (tag + "." + ext)) == Join(dir, stem + tag) + "." + ext
    ensures Splitext(Join(dir, stem + tag) + "." + ext).0 == Join(dir, stem + tag)
  {
    assert stem + (tag + "." + ext) == (stem + tag) + ("." + ext);
    TaggedName(stem, tag);
    SplitPlain(dir, stem + tag, ext);
  }

  /** A stem followed by a tag such as `_keys` is a file name that is
      neither empty nor made of dots only. */
  lemma TaggedName(stem: string, tag: string)
    requires |tag| >= 2 && tag[0] == '_' && tag[1] != '.'
    requires forall j :: 0 <= j < |tag| ==> tag[j] != '/'
    requires forall j :: 0 <= j < |stem| ==> stem[j] != '/'
    ensures NameOnly(stem + tag)
  {
    var name := stem + tag;
    assert name[|stem| + 1] == tag[1];
    forall j | 0 <= j < |name| ensures name[j] != '/' {
      if j >= |stem| { assert name[j] == tag[j - |stem|]; }
    }
  }

  /** A file name without `/` that starts with no `/` and is not made of
      dots only. */
  predicate NameOnly(name: string) {
    name != [] && !AllDots(name) && forall j :: 0 <= j < |name| ==> name[j] != '/'
  }

  lemma SplitPlain(dir: string, name: string, ext: string)
    requires NameOnly(name)
    requires forall j :: 0 <= j < |ext| ==> ext[j] != '.' && ext[j] != '/'
    ensures Join(dir, name + ("." + ext)) == Join(dir, name) + "." + ext
    ensures Splitext(Join(dir, name) + "." + ext).0 == Join(dir, name)
  {
    JoinAppend(dir, name, "." + ext);
    assert Join(dir, name) + ("." + ext) == Join(dir, name) + "." + ext;
    BasenameOfJoin(dir, name);
    SplitextOfExtension(Join(dir, name), ext);
  }

  /** Renaming never accumulates suffixes: the `N`-th pair is the plain
      names with `_N` inserted before their extensions. */
  lemma RenamingReplacesSuffix(input: string, n: nat)
    ensures NumberedPair(PlainEncrypted(input), PlainKey(input), n)
      == (Join(Dirname(input), Stem(input) + "_encrypted") + "_" + Dec(n) + ".enc",
          Join(Dirname(input), Stem(input) + "_keys") + "_" + Dec(n) + ".key")
  {
    SplitPlainEncrypted(input);
    SplitPlainKey(input);
  }
}

=== FILE: paths.dfy ===
/**
  The `/`-separated path functions of Python's `os.path` (the POSIX
  flavour) that the GUI uses to name its output files: `splitext`,
  `basename`, `dirname` and `join`.
*/
module Paths {

  /** Index of the last `c` in `s`, or -1 (`str.rfind`). */
  function RFind(s: string, c: char): (i: int)
    ensures -1 <= i < |s|
    ensures i >= 0 ==> s[i] == c
    ensures forall j :: i < j < |s| ==> s[j] != c
  {
    if s == [] then -1
    else if s[|s| - 1] == c then |s| - 1
    else RFind(s[..|s| - 1], c)
  }

  /** An occurrence with none after it is the last one. */
  lemma {:induction false} RFindAt(s: string, c: char, i: int)
    requires 0 <= i < |s| && s[i] == c
    requires forall j :: i < j < |s| ==> s[j] != c
    ensures RFind(s, c) == i
  {
    if i < |s| - 1 {
      RFindAt(s[..|s| - 1], c, i);
    }
  }

  /** Appending text without `c` does not move the last `c`. */
  lemma {:induction false} RFindAppend(s: string, t: string, c: char)
    requires forall j :: 0 <= j < |t| ==> t[j] != c
    ensures RFind(s + t, c) == RFind(s, c)
  {
    if t != [] {
      assert (s + t)[..|s + t| - 1] == s + t[..|t| - 1];
      RFindAppend(s, t[..|t| - 1], c);
    } else {
      assert s + t == s;
    }
  }

  predicate AllDots(s: string) {
    forall i :: 0 <= i < |s| ==> s[i] == '.'
  }

  /** `os.path.splitext`: the extension starts at the last dot of the final
      component, unless everything before that dot in the component is a
      dot too (so `.bashrc` and `..x` have no extension). */
  function Splitext(p: string): (r: (string, string))
    ensures r.0 + r.1 == p
  {
    var sep := RFind(p, '/');
    var dot := RFind(p, '.');
    if dot > sep && !AllDots(p[sep + 1..dot]) then
      assert p[..dot] + p[dot..] == p;
      (p[..dot], p[dot..])
    else
      (p, "")
  }

  /** `os.path.basename`: everything after the last `/`. */
  function Basename(p: string): (b: string)
    ensures |b| <= |p| && p[|p| - |b|..] == b
  {
    p[RFind(p, '/') + 1..]
  }

  lemma BasenameHasNoSlash(p: string)
    ensures forall j :: 0 <= j < |Basename(p)| ==> Basename(p)[j] != '/'
  {
    var i := RFind(p, '/');
    var b := Basename(p);
    forall j | 0 <= j < |b|
      ensures b[j] != '/'
    {
      assert b[j] == p[i + 1 + j];
    }
  }

  predicate AllSlashes(s: string) {
    forall i :: 0 <= i < |s| ==> s[i] == '/'
  }

  /** `s.rstrip('/')`. */
  function StripTrailingSlashes(s: string): (r: string)
    ensures |r| <= |s| && r == s[..|r|]
    ensures r == [] || r[|r| - 1] != '/'
    ensures forall i :: |r| <= i < |s| ==> s[i] == '/'
  {
    if s != [] && s[|s| - 1] == '/' then StripTrailingSlashes(s[..|s| - 1]) else s
  }

  /** `os.path.dirname`: everything up to the last `/`, with trailing
      slashes removed unless it consists of slashes only. */
  function Dirname(p: string): (d: string)
    ensures |d| <= |p| && d == p[..|d|]
    ensures d + Basename(p) == p || (d != [] && d[|d| - 1] != '/')
  {
    var head := p[..RFind(p, '/') + 1];
    assert head + Basename(p) == p;
    if head != [] && !AllSlashes(head) then StripTrailingSlashes(head) else head
  }

  /** `os.path.join(a, b)`. */
  function Join(a: string, b: string): (r: string)
    ensures b != [] && b[0] != '/' ==> |r| >= |b| && r[|r| - |b|..] == b
    ensures b != [] ==> r != []
  {
    if b != [] && b[0] == '/' then b
    else if a == [] || a[|a| - 1] == '/' then a + b
    else a + "/" + b
  }

  /** Joining a directory and a file name without `/` ends the path with
      that name. */
  lemma BasenameOfJoin(dir: string, name: string)
    requires name != [] && forall j :: 0 <= j < |name| ==> name[j] != '/'
    ensures Basename(Join(dir, name)) == name
  {
    if dir == [] {
      RFindAppend("", name, '/');
      assert "" + name == name;
    } else if dir[|dir| - 1] == '/' {
      RFindAppend(dir, name, '/');
      RFindAt(dir, '/', |dir| - 1);
    } else {
      RFindAppend(dir + "/", name, '/');
      RFindAt(dir + "/", '/', |dir|);
    }
  }

  /** A path whose final component holds a non-dot character, followed by
      `.` and an extension without dots or slashes, splits at that dot. */
  lemma SplitextOfExtension(stem: string, ext: string)
    requires !AllDots(Basename(stem))
    requires forall j :: 0 <= j < |ext| ==> ext[j] != '.' && ext[j] != '/'
    ensures Splitext(stem + "." + ext) == (stem, "." + ext)
  {
    var p := stem + "." + ext;
    assert p == (stem + ".") + ext;
    RFindAppend(stem + ".", ext, '.');
    RFindAt(stem + ".", '.', |stem|);
    RFindAppend(stem + ".", ext, '/');
    RFindAppend(stem, ".", '/');
    var sep := RFind(stem, '/');
    assert p[sep + 1..|stem|] == Basename(stem);
    assert p[..|stem|] == stem;
    assert p[|stem|..] == "." + ext;
  }

  /** Text appended to a relative name ends up at the end of the joined
      path. */
  lemma JoinAppend(a: string, b: string, c: string)
    requires b != [] && b[0] != '/'
    ensures Join(a, b + c) == Join(a, b) + c
  {
    assert (b + c)[0] == b[0];
  }
}

=== FILE: rsa_cipher.dfy ===
/**
  Per-character encryption and decryption of the engine
  (src/rsa_encrypt.c:170-192): every byte of a C string is raised to a key
  exponent modulo `n`, and every ciphertext value is raised back and
  truncated to a `char`.
*/
module RsaCipher {
  import opened CArith
  import opened RsaMath

  type Byte = x: int | 0 <= x < 256

  /** `strlen`: the number of bytes before the first NUL, or all of them. */
  function CStrLen(buf: seq<Byte>): (len: nat)
    ensures len <= |buf|
    ensures forall i :: 0 <= i < len ==> buf[i] != 0
    ensures len < |buf| ==> buf[len] == 0
  {
    if buf == [] || buf[0] == 0 then 0 else 1 + CStrLen(buf[1..])
  }

  /** The conversion `(char)v` of a `long long`, kept as the byte that
      `fwrite` stores: the low eight bits of `v`. */
  function LowByte(v: int): Byte {
    v % 256
  }

  /** The ciphertext of a C string: one value per byte before the first
      NUL, each the byte raised to `e` modulo `n`. */
  function Encryption(str: seq<Byte>, e: int, n: int): (c: seq<int>)
    requires n != 0
    ensures |c| == CStrLen(str)
  {
    seq(CStrLen(str), i requires 0 <= i < CStrLen(str) => ModPow(str[i], e, n))
  }

  /** `mod_exp` is defined on every value to decrypt. */
  predicate DecryptionDefined(values: seq<int>, n: int) {
    forall i :: 0 <= i < |values| ==> ModExpDefined(values[i], n)
  }

  /** The plaintext of ciphertext values: each raised to `d` modulo `n`
      and cut to its low byte. */
  function Decryption(values: seq<int>, d: int, n: int): (b: seq<Byte>)
    requires DecryptionDefined(values, n)
    ensures |b| == |values|
  {
    seq(|values|, i requires 0 <= i < |values| => LowByte(ModPow(values[i], d, n)))
  }

  /** `encrypt_string` computes the ciphertext of the string; for a
      positive exponent every value lies in `[0, |n|)`. */
  method EncryptString(str: seq<Byte>, e: int, n: int) returns (out: seq<int>)
    requires n != 0 && Abs(n) <= MODULUS_MAX
    ensures out == Encryption(str, e, n)
    ensures e > 0 ==> forall i :: 0 <= i < |out| ==> 0 <= out[i] < Abs(n) && out[i] == Pow(str[i], e) % Abs(n)
  {
    var len := CStrLen(str);
    out := [];
    var i := 0;
    while i < len
      invariant 0 <= i <= len && |out| == i
      invariant forall j :: 0 <= j < i ==> out[j] == ModPow(str[j], e, n)
      invariant e > 0 ==> forall j :: 0 <= j < i ==> 0 <= out[j] < Abs(n) && out[j] == Pow(str[j], e) % Abs(n)
    {
      var c := ModExp(str[i], e, n);
      out := out + [c];
      i := i + 1;
    }
  }

  /** `decrypt_string` computes the plaintext of the first `length` values.
      Its buffer size `length + 1` is an `int` sum, so `length` stays below
      `INT_MAX`. */
  method DecryptString(encrypted: seq<int>, length: int, d: int, n: int) returns (out: seq<Byte>)
    requires 0 <= length < INT_MAX && length <= |encrypted|
    requires DecryptionDefined(encrypted[..length], n)
    ensures out == Decryption(encrypted[..length], d, n)
  {
    out := [];
    var i := 0;
    while i < length
      invariant 0 <= i <= length && |out| == i
      invariant forall j :: 0 <= j < i ==> out[j] == LowByte(ModPow(encrypted[j], d, n))
    {
      assert encrypted[..length][i] == encrypted[i];
      var v := ModExp(encrypted[i], d, n);
      out := out + [LowByte(v)];
      i := i + 1;
    }
  }
}

=== FILE: rsa_keys.dfy ===
/**
  Key generation of the engine (src/rsa_encrypt.c:108-144): the prime
  picked from two random draws, and the linear searches for the public
  exponent `e` and the private exponent `d`.
*/
module RsaKeys {
  import opened CArith
  import opened RsaMath

  lemma ThreeIsPrime()
    ensures IsPrime(3)
  {
    assert 3 % 2 == 1;
  }

  /** The product `num1 * num2` that `make_prime` starts from, given the
      two values `rand()` returned. */
  function PrimeSeed(n: int, draw1: nat, draw2: nat): (product: int)
    ensures 9 <= product <= 8910
  {
    var m := Abs(CRem(n, 10));
    var m' := if m == 0 then 3 else m;
    var num1 := draw1 % (m' * 10) + 1;
    var num2 := 9 + draw2 % (100 - 9);
    MulMonotone(num1, 90, num2);
    MulMonotone(9, num2, num1);
    num1 * num2
  }

  /** Counts down from the seed to the first prime: the largest prime not
      above `num1 * num2`. */
  method MakePrime(n: int, draw1: nat, draw2: nat) returns (maybe: int)
    ensures IsPrime(maybe)
    ensures 3 <= maybe <= PrimeSeed(n, draw1, draw2) <= 8910
    ensures forall k :: maybe < k <= PrimeSeed(n, draw1, draw2) ==> !IsPrime(k)
  {
    var m := Abs(CRem(n, 10));
    if m == 0 {
      m := 3;
    }
    var num1 := draw1 % (m * 10) + 1;
    var num2 := 9 + draw2 % (100 - 9);
    maybe := num1 * num2;
    ghost var seed := PrimeSeed(n, draw1, draw2);
    assert maybe == seed;
    ThreeIsPrime();
    while maybe > 2
      invariant 3 <= maybe <= seed
      invariant forall k :: maybe < k <= seed ==> !IsPrime(k)
      decreases maybe
    {
      var prime := IsPrimeC(maybe);
      if prime {
        break;
      }
      maybe := maybe - 1;
      if maybe < 3 {
        assert false;
        maybe := 3;
      }
    }
    if !IsPrime(maybe) {
      assert false;
    }
  }

  /** `e` is a usable public exponent for `lambda`. */
  predicate Acceptable(e: int, lambda: int) {
    IsPrime(e) && GcdInDomain(e, lambda) && Gcd(e, lambda) == 1
  }

  /** `n = p*q` and the least prime `e >= 2` coprime to
      `lambda = (p-1)*(q-1)`; when none lies below `lambda` the search
      stops at `lambda` (or at 2 when `lambda <= 2`). */
  method PublicKey(p: int, q: int) returns (n: int, e: int)
    requires InLong(p * q) && InInt((p - 1) * (q - 1))
    ensures n == p * q
    ensures var lambda := (p - 1) * (q - 1);
      && 2 <= e
      && (e < lambda ==> Acceptable(e, lambda))
      && (e >= lambda ==> e == (if lambda > 2 then lambda else 2))
      && (forall k :: 2 <= k < e ==> !Acceptable(k, lambda))
  {
    n := p * q;
    var lambda := (p - 1) * (q - 1);
    e := 2;
    while e < lambda
      invariant 2 <= e && (lambda > 2 ==> e <= lambda) && (lambda <= 2 ==> e == 2)
      invariant forall k :: 2 <= k < e ==> !Acceptable(k, lambda)
      decreases lambda - e
    {
      var prime := IsPrimeC(e);
      GcdDefinedAwayFromMin(e, lambda);
      if prime && Gcd(e, lambda) == 1 {
        break;
      }
      e := e + 1;
    }
  }

  /** `d` is an inverse of `e` under C's `%` by `lambda`. */
  predicate IsInverse(d: int, e: int, lambda: int)
    requires lambda != 0
  {
    CRem(d * e, lambda) == 1
  }

  /** The least `d` in `[1, lambda]` with `d*e % lambda == 1`, or -1 when
      there is none. The primes `p` and `q` are accepted and unused, as in
      the source. */
  method PrivateKey(p: int, q: int, e: int, lambda: int) returns (d: int)
    requires lambda > 0 && Abs(e) * (lambda + 1) <= LLONG_MAX
    ensures d == -1 <==> forall k :: 1 <= k <= lambda ==> !IsInverse(k, e, lambda)
    ensures d != -1 ==> 1 <= d <= lambda && IsInverse(d, e, lambda)
    ensures d != -1 ==> forall k :: 1 <= k < d ==> !IsInverse(k, e, lambda)
  {
    d := 1;
    while !IsInverse(d, e, lambda)
      invariant 1 <= d <= lambda
      invariant forall k :: 1 <= k < d ==> !IsInverse(k, e, lambda)
      decreases lambda - d
    {
      d := d + 1;
      if d > lambda {
        return -1;
      }
    }
  }
}

=== FILE: rsa_math.dfy ===
/**
  The integer helpers of the engine (src/rsa_encrypt.c): decimal digit
  count, Euclid's gcd, the int/string conversions, trial-division
  primality, and modular multiplication and exponentiation by halving.
  Each is written as the C loop or recursion it models and is specified
  against an independent mathematical definition.
*/
module RsaMath {
  import opened CArith
  import opened Decimal

  // ---------------------------------------------------------------------
  // Reference definitions

  /** `d` divides `x`; 0 divides only 0. */
  predicate Divides(d: nat, x: int) {
    if d == 0 then x == 0 else x % d == 0
  }

  predicate IsPrime(n: int) {
    n >= 2 && forall k :: 2 <= k < n ==> n % k != 0
  }

  /** What `mod_exp` computes: C's remainder of the true power for a
      positive exponent, and the untouched accumulator 1 otherwise. */
  function ModPow(b: int, e: int, m: int): int
    requires m != 0
  {
    if e <= 0 then 1 else CRem(Pow(b, e), m)
  }

  // ---------------------------------------------------------------------
  // digits (src/rsa_encrypt.c:39-48)

  method Digits(t: int) returns (count: int)
    requires INT_MIN < t
    ensures count == |Dec(Abs(t))|
    ensures t == 0 ==> count == 1
    ensures t != 0 ==> count >= 1 && Pow(10, count - 1) <= Abs(t) < Pow(10, count)
  {
    if t == 0 {
      return 1;
    }
    count := 0;
    var u := t;
    if u < 0 {
      u := -u;
    }
    while u != 0
      invariant u >= 0
      invariant u > 0 ==> count + |Dec(u)| == |Dec(Abs(t))|
      invariant u == 0 ==> count == |Dec(Abs(t))|
      decreases u
    {
      count := count + 1;
      u := u / 10;
    }
    DecLength(Abs(t));
  }

  // ---------------------------------------------------------------------
  // gcd (src/rsa_encrypt.c:50-55)

  /** No step of `gcd`'s recursion computes `INT_MIN % -1`, the one `int`
      remainder C leaves undefined. */
  predicate GcdDefined(a: int, b: int)
    decreases Abs(b)
  {
    b == 0 || (!(a == INT_MIN && b == -1) && GcdDefined(b, CRem(a, b)))
  }

  /** Arguments `gcd` can be called with: two `int`s on which its
      recursion stays defined. */
  predicate GcdInDomain(a: int, b: int) {
    InInt(a) && InInt(b) && GcdDefined(a, b)
  }

  /** Away from `INT_MIN` every remainder stays away from it too, so the
      recursion is defined; `gcd(-1, INT_MIN)` reaches `INT_MIN % -1`. */
  lemma {:induction false} GcdDefinedAwayFromMin(a: int, b: int)
    requires INT_MIN < a && INT_MIN < b
    ensures GcdDefined(a, b)
    decreases Abs(b)
  {
    if b != 0 {
      GcdDefinedAwayFromMin(b, CRem(a, b));
    }
  }

  /** `gcd(-1, INT_MIN)` is undefined: its second step is
      `gcd(INT_MIN, -1)`. */
  lemma GcdUndefinedAtMin()
    ensures !GcdDefined(-1, INT_MIN) && InInt(-1) && InInt(INT_MIN)
  {
    assert CRem(-1, INT_MIN) == -1;
    assert !GcdDefined(INT_MIN, -1);
  }

  /** Euclid's recursion ends with `a` as the divisor it returns. */
  lemma GcdBase(a: int)
    ensures Divides(Abs(a), a) && Divides(Abs(a), 0)
    ensures forall d: nat :: Divides(d, a) && Divides(d, 0) ==> Divides(d, a)
  {
    if a != 0 {
      assert a % Abs(a) == 0 by {
        if a < 0 { assert a == Abs(a) * -1; }
        else { assert a == Abs(a) * 1; }
      }
    }
  }

  /** One step of Euclid's loop stays inside the defined domain. */
  lemma GcdDomainStep(a: int, b: int)
    requires GcdInDomain(a, b) && b != 0
    ensures GcdInDomain(b, CRem(a, b))
  {
    assert GcdDefined(b, CRem(a, b));
    assert Abs(CRem(a, b)) < Abs(b);
  }

  /** Euclid's recursion with C's truncating remainder. Its magnitude is
      the greatest common divisor for arguments of any sign; it is
      non-negative when both arguments are. */
  function Gcd(a: int, b: int): (r: int)
    requires GcdInDomain(a, b)
    ensures Divides(Abs(r), a) && Divides(Abs(r), b)
    ensures forall d: nat :: Divides(d, a) && Divides(d, b) ==> Divides(d, r)
    ensures a >= 0 && b >= 0 ==> r >= 0
    decreases Abs(b)
  {
    if b == 0 then
      GcdBase(a);
      a
    else
      var c := CRem(a, b);
      GcdDomainStep(a, b);
      var r := Gcd(b, c);
      GcdStep(a, b, c, r);
      r
  }

  /** `c` is `a` shifted by a multiple of `|b|`. */
  lemma CRemShift(a: int, b: int)
    requires b != 0
    ensures a == CRem(a, b) + Abs(b) * (if a >= 0 then a / Abs(b) else -((-a) / Abs(b)))
  {
  }

  lemma DividesCombination(d: nat, x: int, y: int, k: int)
    requires d > 0 && x % d == 0 && y % d == 0
    ensures (x + y * k) % d == 0
  {
    var p, q := x / d, y / d;
    assert y * k == d * (q * k) by {
      assert y == d * q;
      MulAssoc(d, q, k);
    }
    ModAddMultiple(x, d, q * k);
  }

  lemma DividesNegate(d: nat, x: int)
    requires d > 0 && x % d == 0
    ensures (-x) % d == 0
  {
    DividesCombination(d, 0, x, -1);
  }

  lemma DividesAbs(d: nat, x: int)
    requires d > 0
    ensures x % d == 0 <==> Abs(x) % d == 0
  {
    if x < 0 {
      if x % d == 0 {
        DividesNegate(d, x);
      }
      if Abs(x) % d == 0 {
        DividesNegate(d, Abs(x));
      }
    }
  }

  lemma GcdStep(a: int, b: int, c: int, r: int)
    requires b != 0 && c == CRem(a, b)
    requires Divides(Abs(r), b) && Divides(Abs(r), c)
    requires forall d: nat :: Divides(d, b) && Divides(d, c) ==> Divides(d, r)
    ensures Divides(Abs(r), a) && Divides(Abs(r), b)
    ensures forall d: nat :: Divides(d, a) && Divides(d, b) ==> Divides(d, r)
  {
    var k := if a >= 0 then a / Abs(b) else -((-a) / Abs(b));
    CRemShift(a, b);
    assert a == c + Abs(b) * k;
    var g := Abs(r);
    assert g != 0;
    DividesAbs(g, b);
    DividesCombination(g, c, Abs(b), k);
    forall d: nat | Divides(d, a) && Divides(d, b)
      ensures Divides(d, r)
    {
      if d != 0 {
        DividesAbs(d, b);
        DividesCombination(d, a, Abs(b), -k);
        assert c == a + Abs(b) * -k;
      }
    }
  }

  // ---------------------------------------------------------------------
  // string_of_int (src/rsa_encrypt.c:57-78)

  /** The buffer holds `digits(t)` characters. For a negative `t` the sign
      takes the first of them, so the leading digit is lost. */
  method StringOfInt(t: int) returns (s: string)
    requires INT_MIN < t
    ensures |s| == |Dec(Abs(t))|
    ensures t >= 0 ==> AllDigits(s) && s == Dec(t)
    ensures t < 0 ==> s == "-" + Dec(-t)[1..]
  {
    var length := Digits(t);
    if t == 0 {
      return "0";
    }
    var negative := t < 0;
    var u := if negative then -t else t;
    var lo := if negative then 1 else 0;
    s := [];
    var i := length - 1;
    while i >= lo
      invariant lo - 1 <= i <= length - 1
      invariant |s| == length - 1 - i
      invariant i >= 0 ==> u > 0 && |Dec(u)| == i + 1 && Dec(Abs(t)) == Dec(u) + s
      invariant i < 0 ==> Dec(Abs(t)) == s
    {
      if u >= 10 {
        assert Dec(u) == Dec(u / 10) + [DigitChar(u % 10)];
        assert Dec(u / 10) + [DigitChar(u % 10)] + s == Dec(u / 10) + ([DigitChar(u % 10)] + s);
      }
      s := [DigitChar(u % 10)] + s;
      u := u / 10;
      i := i - 1;
    }
    if negative {
      s := "-" + s;
    }
  }

  // ---------------------------------------------------------------------
  // int_of_string (src/rsa_encrypt.c:80-94)

  /** The digits part of a C string: everything after a leading '-'. */
  function Unsigned(s: string): string {
    if |s| > 0 && s[0] == '-' then s[1..] else s
  }

  /** No `int` operation of `int_of_string` overflows: neither a
      `result * 10` nor the sum that adds the next character, nor the
      final multiplication by the sign. */
  predicate IntOfStringDefined(s: string) {
    var u := Unsigned(s);
    && (forall k :: 0 <= k < |u| ==> StepFits(u, k))
    && (|s| > 0 && s[0] == '-' ==> InInt(-Value(u)))
  }

  /** Step `k` of the loop: `result * 10`, then the sum with the
      character's value, each within `int`. */
  predicate StepFits(u: string, k: int)
    requires 0 <= k < |u|
  {
    InInt(Value(u[..k]) * 10) && InInt(Value(u[..k + 1]))
  }

  /** `s` is the text before the terminating NUL. */
  method IntOfString(s: string) returns (r: int)
    requires '\0' !in s
    requires IntOfStringDefined(s)
    ensures |s| > 0 && s[0] == '-' ==> r == -Value(s[1..])
    ensures !(|s| > 0 && s[0] == '-') ==> r == Value(s)
  {
    var result := 0;
    var sign := 1;
    var i := 0;
    if |s| > 0 && s[0] == '-' {
      sign := -1;
      i := 1;
    }
    var start := i;
    assert s[start..] == Unsigned(s);
    while i < |s|
      invariant 0 <= start <= i <= |s|
      invariant result == Value(s[start..i])
    {
      assert s[start..i + 1] == s[start..i] + [s[i]];
      ValueSnoc(s[start..i], s[i]);
      result := result * 10 + DigitValue(s[i]);
      i := i + 1;
    }
    assert s[start..i] == Unsigned(s);
    r := result * sign;
  }

  /** A string whose every prefix value fits an `int` can still overflow
      in `result * 10`: after "214748365" the next step multiplies to
      2147483650, whatever character follows. */
  lemma MultiplyStepCanOverflow()
    ensures !IntOfStringDefined("214748365+")
  {
    var u := "214748365+";
    assert Unsigned(u) == u;
    assert u[..9] == "214748365";
    assert Value(u[..9]) == 214748365 by {
      assert u[..9][..8] == "21474836";
      assert "21474836"[..7] == "2147483";
      assert "2147483"[..6] == "214748";
      assert "214748"[..5] == "21474";
      assert "21474"[..4] == "2147";
      assert "2147"[..3] == "214";
      assert "214"[..2] == "21";
      assert "21"[..1] == "2";
      assert "2"[..0] == "";
    }
    assert !StepFits(u, 9);
  }

  /** On a digit string whose value fits an `int`, every step of the
      accumulation fits too. */
  lemma DigitsAccumulate(u: string)
    requires AllDigits(u) && Value(u) <= INT_MAX
    ensures forall k :: 0 <= k < |u| ==> StepFits(u, k)
  {
    forall k | 0 <= k < |u|
      ensures StepFits(u, k)
    {
      assert u[..k + 1] == u[..k] + [u[k]];
      ValueSnoc(u[..k], u[k]);
      ValuePrefix(u, k);
      ValuePrefix(u, k + 1);
    }
  }

  /** Prefixes of a digit string never exceed the whole. */
  lemma {:induction false} ValuePrefix(s: string, k: nat)
    requires AllDigits(s) && k <= |s|
    ensures 0 <= Value(s[..k]) <= Value(s)
  {
    if k < |s| {
      var init := s[..|s| - 1];
      assert s[..k] == init[..k];
      ValuePrefix(init, k);
      assert s == init + [s[|s| - 1]];
      ValueSnoc(init, s[|s| - 1]);
      ValueNonnegative(init);
    } else {
      assert s[..k] == s;
      ValueNonnegative(s);
    }
  }

  /** A digit string is below the next power of ten. */
  lemma {:induction false} ValueBound(s: string)
    requires AllDigits(s)
    ensures Value(s) < Pow(10, |s|)
  {
    if s != [] {
      var init := s[..|s| - 1];
      ValueBound(init);
    }
  }

  /** `int_of_string(string_of_int(t))`: the identity on non-negative
      numbers; for negative ones the lost leading digit makes the result
      strictly larger than `t`. */
  method DecimalRoundTrip(t: int) returns (back: int)
    requires INT_MIN < t <= INT_MAX
    ensures t >= 0 ==> back == t
    ensures t < 0 ==> t < back <= 0
  {
    var s := StringOfInt(t);
    var n := Abs(t);
    var digits := Dec(n);
    var body := if t >= 0 then digits else digits[1..];
    assert Unsigned(s) == body;
    assert AllDigits(body) && Value(body) <= INT_MAX by {
      if t < 0 {
        BodyBelow(n, digits);
      } else {
        ValueOfDec(n);
      }
    }
    DigitsAccumulate(body);
    ValueNonnegative(body);
    assert '\0' !in s by {
      assert forall i :: 0 <= i < |body| ==> IsDigit(body[i]);
    }
    back := IntOfString(s);
    if t >= 0 {
      ValueOfDec(t);
    } else {
      BodyBelow(n, digits);
      ValueNonnegative(body);
    }
  }

  /** Dropping the leading digit of `n > 0` leaves a smaller value. */
  lemma BodyBelow(n: nat, digits: string)
    requires n > 0 && digits == Dec(n)
    ensures AllDigits(digits[1..]) && 0 <= Value(digits[1..]) < n
  {
    var body := digits[1..];
    assert AllDigits(body) by {
      assert forall i :: 0 <= i < |body| ==> body[i] == digits[i + 1];
    }
    ValueBound(body);
    ValueNonnegative(body);
    DecLength(n);
  }

  // ---------------------------------------------------------------------
  // isprime (src/rsa_encrypt.c:96-106)

  /** Trial division by odd candidates up to the square root; the C bound
      `i <= (int)sqrt((double)v)` is the integer test `i * i <= v`. */
  method IsPrimeC(v: int) returns (r: bool)
    requires INT_MIN < v
    ensures r <==> IsPrime(Abs(v))
  {
    var u := Abs(v);
    if u < 2 {
      return false;
    }
    if u == 2 {
      return true;
    }
    if u % 2 == 0 {
      assert 2 < u && u % 2 == 0;
      return false;
    }
    r := OddTrialDivision(u);
  }

  /** The loop of `isprime`: odd candidates from 3 while their square
      stays within `u`. */
  method OddTrialDivision(u: int) returns (r: bool)
    requires u >= 3 && u % 2 == 1
    ensures r <==> IsPrime(u)
  {
    var i := 3;
    while i * i <= u
      invariant 3 <= i && i % 2 == 1
      invariant NoDivisorBelow(u, i)
      decreases u - i
    {
      SquareBelow(i, u);
      if u % i == 0 {
        assert !IsPrime(u) by { assert 2 <= i < u; }
        return false;
      }
      NoDivisorStep(u, i);
      i := i + 2;
    }
    NoDivisorAboveRoot(u, i);
    return true;
  }

  /** No candidate in `[2, i)` divides `u`. */
  predicate NoDivisorBelow(u: int, i: int) {
    forall k :: 2 <= k < i ==> u % k != 0
  }

  /** One more odd candidate that fails to divide leaves no divisor
      below the next odd candidate either. */
  lemma NoDivisorStep(u: int, i: int)
    requires u % 2 == 1 && i >= 3 && i % 2 == 1 && u % i != 0
    requires NoDivisorBelow(u, i)
    ensures NoDivisorBelow(u, i + 2)
  {
    OddNotDivisibleByEven(u, i + 1);
  }

  lemma SquareBelow(i: int, u: int)
    requires 3 <= i && i * i <= u
    ensures i < u
  {
    MulMonotone(1, i, i);
  }

  lemma OddNotDivisibleByEven(u: int, k: int)
    requires u % 2 == 1 && k > 0 && k % 2 == 0
    ensures u % k != 0
  {
    if u % k == 0 {
      var q := u / k;
      var j := k / 2;
      assert u == 2 * (j * q) by {
        assert u == k * q;
        assert k == 2 * j;
        MulAssoc(2, j, q);
      }
      ModUnique(u, 2, j * q, 0);
    }
  }

  /** A composite has a divisor no larger than its square root. */
  lemma NoDivisorAboveRoot(u: int, i: int)
    requires u >= 0 && i >= 2 && i * i > u
    requires NoDivisorBelow(u, i)
    ensures forall k :: 2 <= k < u ==> u % k != 0
  {
    forall k | 2 <= k < u
      ensures u % k != 0
    {
      if k >= i && u % k == 0 {
        var q := u / k;
        assert u == k * q;
        if q >= i {
          MulMonotone(i, k, q);
          MulMonotone(i, q, i);
        } else if q <= 1 {
          MulMonotone(q, 1, k);
        } else {
          ModUnique(u, q, k, 0);
        }
      }
    }
  }

  lemma MulMonotone(a: int, b: int, c: int)
    requires a <= b && c >= 0
    ensures a * c <= b * c
  {
  }

  // ---------------------------------------------------------------------
  // mod_mult (src/rsa_encrypt.c:146-156)

  /** Multiplication by doubling and halving the second factor. C
      defines it for every non-zero modulus, negative ones included, as
      long as no intermediate value overflows and `a % mod` is not
      `LLONG_MIN % -1`. */
  method ModMult(a: int, b: int, mod: int) returns (r: int)
    requires mod != 0 && 2 * Abs(mod) <= LLONG_MAX
    requires !(a == -LLONG_MAX - 1 && mod == -1)
    ensures b >= 0 ==> r == CRem(a * b, mod)
    ensures a >= 0 && b >= 0 ==> 0 <= r < Abs(mod) && r == (a * b) % Abs(mod)
    ensures b < 0 ==> r == 0
  {
    ghost var m := Abs(mod);
    r := 0;
    var x := CRem(a, mod);
    CRemAbs(a, mod);
    var y := b;
    // The loop runs on magnitudes; every value carries the sign of `a`.
    ghost var neg := a < 0;
    ghost var A := Abs(a);
    ghost var R: int := 0;
    ghost var X: int := A % m;
    if b >= 0 {
      ModMulLeft(A, b, m);
    }
    while y > 0
      invariant y >= 0 || y == b
      invariant b < 0 ==> r == 0
      invariant 0 <= R < m && 0 <= X < m
      invariant r == (if neg then -R else R) && x == (if neg then -X else X)
      invariant b >= 0 ==> (R + X * y) % m == (A * b) % m
    {
      ghost var R0, X0, y0 := R, X, y;
      if y % 2 == 1 {
        CRemAbs(r + x, mod);
        r := CRem(r + x, mod);
        R := (R + X) % m;
      }
      CRemAbs(2 * x, mod);
      x := CRem(2 * x, mod);
      X := (2 * X) % m;
      y := y / 2;
      HalvingInvariant(R0, X0, y0, m);
    }
    if b >= 0 {
      assert y == 0 && X * y == 0;
      ModUnique(R, m, 0, R);
      ModMultResult(a, b, m, R);
      CRemAbs(a * b, mod);
    }
  }

  /** One iteration of `mod_mult` keeps the pending product unchanged. */
  lemma HalvingInvariant(R: int, X: int, y: int, m: int)
    requires m > 0 && y > 0
    ensures ((if y % 2 == 1 then (R + X) % m else R) + ((2 * X) % m) * (y / 2)) % m
         == (R + X * y) % m
  {
    var k := y / 2;
    if y % 2 == 1 {
      assert y == 2 * k + 1;
      HalvingStepOdd(R, X, k, m);
    } else {
      assert y == 2 * k;
      HalvingStep(R, X, k, m);
    }
  }

  lemma ModMultResult(a: int, b: int, m: int, R: int)
    requires m > 0 && b >= 0 && R == (Abs(a) * b) % m
    ensures CRem(a * b, m) == (if a < 0 then -R else R)
  {
    if a < 0 {
      assert -(a * b) == (-a) * b;
      if b > 0 {
        MulPositive(-a, b);
      }
    } else {
      MulMonotone(0, a, b);
    }
  }

  lemma ModAddBoth(u: int, v: int, m: int)
    requires m > 0
    ensures (u % m + v % m) % m == (u + v) % m
  {
    ModAddLeft(u, v % m, m);
    ModAddLeft(v, u, m);
  }

  /** An even step of `mod_mult`: the doubled factor absorbs the halved count. */
  lemma HalvingStep(R: int, X: int, k: int, m: int)
    requires m > 0
    ensures (R + ((2 * X) % m) * k) % m == (R + X * (2 * k)) % m
  {
    var P := ((2 * X) % m) * k;
    var P' := (2 * X) * k;
    assert P % m == P' % m by {
      ModMulLeft(2 * X, k, m);
    }
    calc {
      (R + P) % m;
      { ModAddBoth(R, P, m); }
      (R % m + P % m) % m;
      (R % m + P' % m) % m;
      { ModAddBoth(R, P', m); }
      (R + P') % m;
    }
    assert P' == X * (2 * k) by {
      MulAssoc(X, 2, k);
    }
  }

  /** An odd step of `mod_mult`: the accumulator absorbs one factor first. */
  lemma HalvingStepOdd(R: int, X: int, k: int, m: int)
    requires m > 0
    ensures ((R + X) % m + ((2 * X) % m) * k) % m == (R + X * (2 * k + 1)) % m
  {
    ModAddLeft(R + X, ((2 * X) % m) * k, m);
    HalvingStep(R + X, X, k, m);
  }

  // ---------------------------------------------------------------------
  // mod_exp (src/rsa_encrypt.c:158-168)

  /** The largest modulus for which `mod_exp`'s products of two residues
      fit a `long long`. */
  const MODULUS_MAX: int := 3037000500

  /** `MODULUS_MAX` is exact: `(m - 1) * (m - 1)` fits exactly when
      `m <= MODULUS_MAX`. */
  lemma ModulusSquareFits(m: int)
    requires m > 0
    ensures (m - 1) * (m - 1) <= LLONG_MAX <==> m <= MODULUS_MAX
  {
    if m <= MODULUS_MAX {
      MulMonotone(m - 1, MODULUS_MAX - 1, m - 1);
      MulMonotone(m - 1, MODULUS_MAX - 1, MODULUS_MAX - 1);
    } else {
      MulMonotone(MODULUS_MAX, m - 1, m - 1);
      MulMonotone(MODULUS_MAX, m - 1, MODULUS_MAX);
    }
  }

  /** `mod_exp(base, _, mod)` runs without undefined behaviour: no
      division by zero, no `LLONG_MIN % -1`, and no product of two
      residues beyond `long long`. */
  predicate ModExpDefined(base: int, mod: int) {
    mod != 0 && Abs(mod) <= MODULUS_MAX && !(base == -LLONG_MAX - 1 && mod == -1)
  }

  /** Square-and-multiply with C remainders. The accumulator starts at 1
      and is only reduced when it absorbs a factor, so a zero exponent
      yields 1 whatever the modulus, 1 and -1 included. */
  method ModExp(base: int, expo: int, mod: int) returns (r: int)
    requires ModExpDefined(base, mod)
    ensures r == ModPow(base, expo, mod)
    ensures expo > 0 ==> Abs(r) < Abs(mod)
    ensures base >= 0 && expo > 0 ==> 0 <= r < Abs(mod) && r == Pow(base, expo) % Abs(mod)
  {
    ghost var m := Abs(mod);
    ModulusSquareFits(m);
    r := 1;
    var b := CRem(base, mod);
    CRemAbs(base, mod);
    var e := expo;
    if expo > 0 {
      CRemPow(base, expo, m);
    }
    while e > 0
      invariant expo > 0 ==> 0 <= e
      invariant expo <= 0 ==> e == expo && r == 1
      invariant Abs(b) < m
      invariant base >= 0 ==> b >= 0 && r >= 0
      invariant expo > 0 ==> CRem(r * Pow(b, e), m) == CRem(Pow(base, expo), m)
      invariant expo > 0 && e == 0 ==> CRem(r, m) == r
    {
      var k := e / 2;
      if e % 2 == 1 {
        SquareMultiplyOdd(r, b, k, m);
        CRemIdempotent(r * b, m);
        CRemAbs(r * b, mod);
        r := CRem(r * b, mod);
      } else {
        SquareMultiplyEven(r, b, k, m);
      }
      e := k;
      CRemAbs(b * b, mod);
      b := CRem(b * b, mod);
    }
    if expo > 0 {
      CRemAbs(Pow(base, expo), mod);
    }
    if base >= 0 && expo > 0 {
      PowNonnegative(base, expo);
    }
  }

  lemma CRemMulPow(x: int, y: int, k: nat, m: int)
    requires m > 0
    ensures CRem(x * Pow(CRem(y, m), k), m) == CRem(x * Pow(y, k), m)
  {
    CRemMul(x, Pow(CRem(y, m), k), m);
    CRemPow(y, k, m);
    CRemMul(x, Pow(y, k), m);
  }

  lemma SquareMultiplyOdd(r: int, b: int, k: nat, m: int)
    requires m > 0
    ensures CRem(CRem(r * b, m) * Pow(CRem(b * b, m), k), m) == CRem(r * Pow(b, 2 * k + 1), m)
  {
    CRemMulPow(CRem(r * b, m), b * b, k, m);
    CRemMulLeft(r * b, Pow(b * b, k), m);
    PowOdd(b, k);
    MulAssoc(r, b, Pow(b * b, k));
  }

  lemma SquareMultiplyEven(r: int, b: int, k: nat, m: int)
    requires m > 0
    ensures CRem(r * Pow(CRem(b * b, m), k), m) == CRem(r * Pow(b, 2 * k), m)
  {
    CRemMulPow(r, b * b, k, m);
    PowSquare(b, k);
  }
}

=== FILE: scanf.dfy ===
/**
  The part of C's `fscanf` the engine relies on: literal characters,
  white-space directives and the decimal conversions `%lld` / `%d`. A
  scan stops at the first directive that fails and reports the values
  assigned so far; `fscanf`'s return value is their number.
*/
module Scanf {
  import opened Wrappers
  import opened CArith
  import opened Decimal

  /** `isspace` in the C locale. */
  predicate IsSpace(c: char) {
    c == ' ' || c == '\t' || c == '\n' || c == '\r' || c == '\U{B}' || c == '\U{C}'
  }

  function SkipSpace(s: string): (r: string)
    ensures |r| <= |s| && r == s[|s| - |r|..]
    ensures r == [] || !IsSpace(r[0])
    ensures forall i :: 0 <= i < |s| - |r| ==> IsSpace(s[i])
  {
    if s != [] && IsSpace(s[0]) then
      var r := SkipSpace(s[1..]);
      assert s[|s| - |r|..] == s[1..][|s| - 1 - |r|..];
      assert forall i :: 1 <= i < |s| - |r| ==> s[i] == s[1..][i - 1];
      r
    else s
  }

  /** Length of the run of decimal digits that starts `s`. */
  function DigitRun(s: string): (k: nat)
    ensures k <= |s| && AllDigits(s[..k])
    ensures k < |s| ==> !IsDigit(s[k])
  {
    if s != [] && IsDigit(s[0]) then
      var k := 1 + DigitRun(s[1..]);
      assert s[..k] == [s[0]] + s[1..][..k - 1];
      k
    else
      0
  }

  /** `%lld` and `%d`: leading white space, an optional sign, then the
      longest run of digits, of which there must be at least one. */
  function ScanInteger(s: string): Option<(int, string)> {
    var t := SkipSpace(s);
    var negative := t != [] && t[0] == '-';
    var u := if t != [] && (t[0] == '-' || t[0] == '+') then t[1..] else t;
    WithSign(negative, Magnitude(u))
  }

  function WithSign(negative: bool, m: Option<(int, string)>): Option<(int, string)> {
    match m
    case None => None
    case Some(m) => Some((if negative then -m.0 else m.0, m.1))
  }

  /** The unsigned part of `%lld`: the value of the longest run of digits
      and what follows it, when the run is not empty. */
  function Magnitude(u: string): Option<(int, string)> {
    var k := DigitRun(u);
    if k == 0 then None else Some((Value(u[..k]), u[k..]))
  }

  datatype Directive = Literal(c: char) | Whitespace | Integer

  function Literals(lit: string): seq<Directive> {
    if lit == [] then [] else [Literal(lit[0])] + Literals(lit[1..])
  }

  /** The values the directives assign before the first failure. */
  function Scan(ds: seq<Directive>, s: string): seq<int>
    decreases |ds|
  {
    if ds == [] then []
    else match ds[0]
      case Literal(c) => if s != [] && s[0] == c then Scan(ds[1..], s[1..]) else []
      case Whitespace => Scan(ds[1..], SkipSpace(s))
      case Integer =>
        match ScanInteger(s)
        case None => []
        case Some(r) => [r.0] + Scan(ds[1..], r.1)
  }

  lemma SkipSpaceNoop(s: string)
    requires s != [] && !IsSpace(s[0])
    ensures SkipSpace(s) == s
  {
  }

  lemma {:induction false} DigitRunOfDigits(d: string, tail: string)
    requires AllDigits(d)
    requires tail == [] || !IsDigit(tail[0])
    ensures DigitRun(d + tail) == |d|
  {
    if d != [] {
      assert (d + tail)[1..] == d[1..] + tail;
      DigitRunOfDigits(d[1..], tail);
    } else {
      assert d + tail == tail;
    }
  }

  /** `%lld` reads back exactly what `printf("%lld")` wrote, provided a
      non-digit (or the end of input) follows. */
  lemma ScanSigned(v: int, tail: string)
    requires tail == [] || !IsDigit(tail[0])
    ensures ScanInteger(Signed(v) + tail) == Some((v, tail))
  {
    var x := Abs(v);
    ValueOfDec(x);
    if v < 0 {
      MinusPrefix(Dec(x), tail);
      MagnitudeOfDigits(Dec(x), tail);
      ScanUnsigned(Dec(x) + tail);
    } else {
      ScanDigits(Dec(x), tail);
    }
  }

  /** The digit run of `d + tail` is exactly `d`. */
  lemma SplitDigitRun(d: string, tail: string)
    requires AllDigits(d)
    requires tail == [] || !IsDigit(tail[0])
    ensures DigitRun(d + tail) == |d|
    ensures (d + tail)[..|d|] == d && (d + tail)[|d|..] == tail
  {
    DigitRunOfDigits(d, tail);
  }

  /** `%lld` over an unsigned digit string. */
  lemma ScanDigits(d: string, tail: string)
    requires d != [] && AllDigits(d)
    requires tail == [] || !IsDigit(tail[0])
    ensures ScanInteger(d + tail) == Some((Value(d), tail))
  {
    var u := d + tail;
    assert u[0] == d[0];
    ScanUnsigned(u);
    MagnitudeOfDigits(d, tail);
  }

  lemma MinusPrefix(d: string, tail: string)
    ensures "-" + d + tail == ['-'] + (d + tail)
  {
  }

  lemma MagnitudeOfDigits(d: string, tail: string)
    requires d != [] && AllDigits(d)
    requires tail == [] || !IsDigit(tail[0])
    ensures d + tail != [] && IsDigit((d + tail)[0])
    ensures Magnitude(d + tail) == Some((Value(d), tail))
  {
    assert (d + tail)[0] == d[0];
    SplitDigitRun(d, tail);
  }

  /** Over text that starts with a digit `%lld` reads the magnitude, and
      over the same text after a minus sign its negation. */
  lemma ScanUnsigned(u: string)
    requires u != [] && IsDigit(u[0])
    ensures ScanInteger(u) == Magnitude(u)
    ensures ScanInteger(['-'] + u) == WithSign(true, Magnitude(u))
  {
    var s := ['-'] + u;
    assert s[0] == '-';
    SkipSpaceNoop(s);
    assert s[1..] == u;
    SkipSpaceNoop(u);
  }

  lemma {:induction false} ScanLiterals(lit: string, ds: seq<Directive>, s: string)
    ensures Scan(Literals(lit) + ds, lit + s) == Scan(ds, s)
  {
    if lit != [] {
      assert (Literals(lit) + ds)[0] == Literal(lit[0]);
      assert (Literals(lit) + ds)[1..] == Literals(lit[1..]) + ds;
      assert (lit + s)[1..] == lit[1..] + s;
      ScanLiterals(lit[1..], ds, s);
    } else {
      assert Literals(lit) + ds == ds;
      assert lit + s == s;
    }
  }

  /** One successful `%lld` step of a scan. */
  lemma ScanIntegerStep(ds: seq<Directive>, s: string, v: int, rest: string)
    requires ds != [] && ds[0] == Integer && ScanInteger(s) == Some((v, rest))
    ensures Scan(ds, s) == [v] + Scan(ds[1..], rest)
  {
  }

  /** One white-space step of a scan. */
  lemma ScanWhitespaceStep(ds: seq<Directive>, s: string)
    requires ds != [] && ds[0] == Whitespace
    ensures Scan(ds, s) == Scan(ds[1..], SkipSpace(s))
  {
  }

  /** `%lld` followed by white space. */
  lemma ScanIntegerThenSpace(ds: seq<Directive>, s: string, v: int, rest: string)
    requires ScanInteger(s) == Some((v, rest))
    ensures Scan([Integer, Whitespace] + ds, s) == [v] + Scan(ds, SkipSpace(rest))
  {
    var ds' := [Integer, Whitespace] + ds;
    assert ds'[1..][0] == Whitespace;
    assert ds'[1..][1..] == ds;
    ScanIntegerStep(ds', s, v, rest);
    ScanWhitespaceStep(ds'[1..], rest);
  }
}

=== FILE: session.dfy ===
/**
  The GUI's session logic around one encryption: the state it keeps, the
  probe and file selection that drive the encrypt button
  (src/gui.py:136-191), the guards before an encryption starts
  (src/gui.py:310-332), and the effects of the background encryption
  (src/gui.py:220-308) as an ordered trace. Widgets, dialogs and the
  worker thread are reduced to the effects they receive.
*/
module Session {
  import opened Wrappers
  import opened Host
  import opened Paths
  import opened Naming
  import opened Health

  /** What the window holds: the engine path, the input path, the text of
      the executable label, the button and status line, whether the
      progress bar runs, and the output log. */
  datatype Gui = Gui(
    exe: string,
    input: string,
    exeLabel: string,
    controls: Controls,
    busy: bool,
    log: seq<string>)

  /** The window right after start-up, before the delayed first probe:
      `exe` is the path the automatic search found (or ""). */
  function Initial(exe: string): (g: Gui)
    ensures g.exe == exe && g.input == ""
    ensures g.exeLabel == "Checking executable..." && !Contains(g.exeLabel, ReadyMark)
    ensures g.controls == Controls(false, "Ready - Please select a file to encrypt")
    ensures !g.busy && g.log == []
  {
    ReadyMarkOnlyWhenReady(Checking);
    Gui(exe, "", Label(Checking), Controls(false, "Ready - Please select a file to encrypt"), false, [])
  }

  /** `check_executable`: the label and log follow the probe, but the
      button and status line are recomputed only when the engine is
      ready. */
  function CheckExecutable(g: Gui, fs: Fs, run: ProcessResult): (h: Gui)
    ensures h.exe == g.exe && h.input == g.input && h.busy == g.busy
    ensures h.exeLabel == Label(ProbeExecutable(fs, g.exe, run).readiness)
    ensures h.log == g.log + ProbeExecutable(fs, g.exe, run).log
    ensures ProbeExecutable(fs, g.exe, run).readiness == Ready ==>
      h.controls == ButtonState(h.exeLabel, fs, g.input)
  {
    var p := ProbeExecutable(fs, g.exe, run);
    var text := Label(p.readiness);
    var controls := if p.readiness == Ready then ButtonState(text, fs, g.input) else g.controls;
    g.(exeLabel := text, controls := controls, log := g.log + p.log)
  }

  /** A failed probe leaves the button as it was: once enabled, it stays
      enabled under a label that says the engine is not usable, which the
      button rule itself would never allow. */
  lemma FailedProbeKeepsButton(g: Gui, fs: Fs, run: ProcessResult)
    requires ProbeExecutable(fs, g.exe, run).readiness != Ready
    ensures CheckExecutable(g, fs, run).controls == g.controls
    ensures g.controls.enabled ==>
      CheckExecutable(g, fs, run).controls != ButtonState(CheckExecutable(g, fs, run).exeLabel, fs, g.input)
  {
    var h := CheckExecutable(g, fs, run);
    ReadyMarkOnlyWhenReady(ProbeExecutable(fs, g.exe, run).readiness);
    assert !ButtonState(h.exeLabel, fs, g.input).enabled;
  }

  /** `browse_input_file` after a file was chosen: the button follows the
      executable label and the new path, and the file's name is logged. */
  function SelectInput(g: Gui, fs: Fs, filename: string): (h: Gui)
    requires filename != ""
    ensures h.input == filename && h.exe == g.exe && h.exeLabel == g.exeLabel && h.busy == g.busy
    ensures h.controls == ButtonState(g.exeLabel, fs, filename)
    ensures h.controls.enabled <==> Contains(g.exeLabel, ReadyMark) && IsFile(fs, filename)
    ensures h.log == g.log + ["Selected file: " + Basename(filename)]
  {
    g.(input := filename,
       controls := ButtonState(g.exeLabel, fs, filename),
       log := g.log + ["Selected file: " + Basename(filename)])
  }

  /** Choosing a file before the first probe never enables the button:
      the label still says the engine is being checked. */
  lemma SelectBeforeProbe(exe: string, fs: Fs, filename: string)
    requires filename != ""
    ensures var h := SelectInput(Initial(exe), fs, filename);
      && !h.controls.enabled
      && h.controls.status == "Waiting for executable..."
      && h.log == ["Selected file: " + Basename(filename)]
  {
  }

  /** After a selection the button is enabled only when a press gets past
      the input check: the press is refused for the input exactly when
      the chosen path is not an existing file. */
  lemma SelectThenStart(g: Gui, fs: Fs, filename: string)
    requires filename != ""
    ensures var h := SelectInput(g, fs, filename);
      && (StartEncryption(h, fs) == Rejected("Please select a valid input file") <==> !IsFile(fs, filename))
      && (h.controls.enabled ==> StartEncryption(h, fs) != Rejected("Please select a valid input file"))
  {
  }

  /** The result of pressing the button: an error dialog and nothing
      else, or a window prepared for the worker thread. */
  datatype Start = Rejected(message: string) | Started(gui: Gui)

  /** `encrypt_file_threaded`: the input must be an existing file and then
      the engine path must be too; otherwise the button is disabled, the
      progress bar started, the status set and the log cleared. */
  function StartEncryption(g: Gui, fs: Fs): (s: Start)
    ensures !FileSelected(fs, g.input) ==> s == Rejected("Please select a valid input file")
    ensures FileSelected(fs, g.input) && !FileSelected(fs, g.exe) ==> s == Rejected("C executable not found")
    ensures s.Started? <==> FileSelected(fs, g.input) && FileSelected(fs, g.exe)
    ensures s.Started? ==> s.gui == g.(controls := Controls(false, "Encrypting file..."), busy := true, log := [])
  {
    if !FileSelected(fs, g.input) then Rejected("Please select a valid input file")
    else if !FileSelected(fs, g.exe) then Rejected("C executable not found")
    else Started(g.(controls := Controls(false, "Encrypting file..."), busy := true, log := []))
  }

  // ---------------------------------------------------------------------
  // The background encryption

  /** The lines `run_encryption` and `show_key_info` log; `Render` gives
      each one's text. */
  datatype Line =
    | Starting
    | InputIs(path: string)
    | OutputIs(path: string)
    | KeysIs(path: string)
    | Blank
    | ResultsHeading
    | ErrorOutputHeading
    | Stripped(text: string)
    | SuccessBanner
    | EncryptedFileIs(path: string)
    | KeyFileIs(path: string)
    | KeepKeySafe
    | KeyInfoHeading
    | KeyInfoEnd
    | KeyUnreadable(message: string)
    | FailureBanner
    | TimeoutBanner
    | ErrorBanner(message: string)

  function Render(l: Line): string {
    match l
    case Starting => "🔄 Starting encryption..."
    case InputIs(path) => "Input: " + Basename(path)
    case OutputIs(path) => "Output: " + Basename(path)
    case KeysIs(path) => "Keys: " + Basename(path)
    case Blank => ""
    case ResultsHeading => "--- Encryption Results ---"
    case ErrorOutputHeading => "--- Error Output ---"
    case Stripped(text) => Strip(text)
    case SuccessBanner => "🎉 SUCCESS! File encrypted successfully!"
    case EncryptedFileIs(path) => "📁 Encrypted file: " + path
    case KeyFileIs(path) => "🔑 Key file: " + path
    case KeepKeySafe => "⚠️  IMPORTANT: Keep the key file safe! You need it to decrypt the file."
    case KeyInfoHeading => "--- RSA Key Information ---"
    case KeyInfoEnd => "--- End of Key Information ---"
    case KeyUnreadable(message) => "Could not read key file: " + message
    case FailureBanner => "❌ Encryption failed!"
    case TimeoutBanner => "❌ Encryption timed out"
    case ErrorBanner(message) => "❌ Error during encryption: " + message
  }

  /** The status line texts `run_encryption` sets. */
  datatype Status = Completed | FailedStatus | TimedOutStatus | ErrorStatus

  function StatusText(st: Status): string {
    match st
    case Completed => "Encryption completed successfully!"
    case FailedStatus => "Encryption failed"
    case TimedOutStatus => "Encryption timed out"
    case ErrorStatus => "Encryption error"
  }

  /** The message boxes `run_encryption` shows. */
  datatype Dialog =
    | SuccessDialog(enc: string, key: string)
    | FailureDialog
    | TimeoutDialog
    | ErrorDialog(message: string)

  /** `True` for `showinfo`, `False` for `showerror`. */
  predicate IsInfo(d: Dialog) {
    d.SuccessDialog?
  }

  function Title(d: Dialog): string {
    if IsInfo(d) then "Success" else "Error"
  }

  function Message(d: Dialog): string {
    match d
    case SuccessDialog(enc, key) =>
      "File encrypted successfully!\n\nEncrypted file: " + Basename(enc) + "\nKey file: " + Basename(key)
      + "\n\nKeep the key file safe - you need it to decrypt!"
    case FailureDialog => "Encryption failed. Check output for details."
    case TimeoutDialog => "Encryption operation timed out"
    case ErrorDialog(message) => "Error during encryption: " + message
  }

  /** What `run_encryption` does to the world, in order. */
  datatype Effect =
    | Log(line: Line)
    | Spawn(argv: seq<string>)
    | ReadKey(path: string)
    | SetStatus(status: Status)
    | Show(dialog: Dialog)
    | StopProgress
    | EnableButton

  /** The argument vector of the engine call. */
  function EncryptArgv(exe: string, input: string, enc: string, key: string): seq<string> {
    [exe, "encrypt", input, enc, key]
  }

  /** The lines announcing the plan. */
  function PlanLines(input: string, enc: string, key: string): seq<Effect> {
    [Log(Starting), Log(InputIs(input)), Log(OutputIs(enc)), Log(KeysIs(key)), Log(Blank)]
  }

  /** The child's standard output, then its standard error, each only
      when non-empty. */
  function OutputLines(stdout: string, stderr: string): seq<Effect> {
    (if stdout != "" then [Log(ResultsHeading), Log(Stripped(stdout))] else [])
    + (if stderr != "" then [Log(ErrorOutputHeading), Log(Stripped(stderr))] else [])
  }

  /** `show_key_info` after the file was read or failed to be read. */
  function KeyInfo(read: ReadResult): seq<Effect> {
    match read
    case Contents(text) => [Log(KeyInfoHeading), Log(Stripped(text)), Log(KeyInfoEnd)]
    case ReadFailed(message) => [Log(KeyUnreadable(message))]
  }

  /** The lines logged on exit status 0. */
  function SuccessLines(enc: string, key: string): seq<Effect> {
    [Log(Blank), Log(SuccessBanner), Log(EncryptedFileIs(enc)), Log(KeyFileIs(key)), Log(Blank), Log(KeepKeySafe)]
  }

  /** Exit status 0: the success lines, status and dialog, then the key
      file is read back and shown. */
  function Succeeded(enc: string, key: string, read: ReadResult): seq<Effect> {
    SuccessLines(enc, key) + [SetStatus(Completed), Show(SuccessDialog(enc, key)), ReadKey(key)] + KeyInfo(read)
  }

  const Failed: seq<Effect> := [Log(FailureBanner), SetStatus(FailedStatus), Show(FailureDialog)]

  const TimedOutEffects: seq<Effect> := [Log(TimeoutBanner), SetStatus(TimedOutStatus), Show(TimeoutDialog)]

  /** The handler of any other exception. */
  function Errored(message: string): seq<Effect> {
    [Log(ErrorBanner(message)), SetStatus(ErrorStatus), Show(ErrorDialog(message))]
  }

  /** The `finally` clause. */
  const Finally: seq<Effect> := [StopProgress, EnableButton]

  const NoPaths: string := "Could not generate output file paths"

  /** The effects after the engine returned, timed out or failed to run. */
  function Verdict(enc: string, key: string, run: ProcessResult, read: ReadResult): seq<Effect> {
    match run
    case Exit(code, stdout, stderr) =>
      OutputLines(stdout, stderr) + (if code == 0 then Succeeded(enc, key, read) else Failed)
    case Timeout => TimedOutEffects
    case Fault(message) => Errored(message)
  }

  /** `run_encryption` given the output paths it computed, what the engine
      call returns, and what reading the key file back returns. */
  function EncryptionTrace(exe: string, input: string, paths: Option<(string, string)>,
                           run: ProcessResult, read: ReadResult): seq<Effect>
  {
    if paths.None? || paths.value.0 == "" || paths.value.1 == "" then Errored(NoPaths) + Finally
    else SpawnedTrace(exe, input, paths.value.0, paths.value.1, run, read)
  }

  /** The trace once both output paths are known. */
  function SpawnedTrace(exe: string, input: string, enc: string, key: string,
                        run: ProcessResult, read: ReadResult): seq<Effect>
  {
    PlanLines(input, enc, key) + ([Spawn(EncryptArgv(exe, input, enc, key))] + (Verdict(enc, key, run, read) + Finally))
  }

  /** `run_encryption` on a host: the output paths are chosen against the
      file system, and the trace is the one for those paths. */
  method RunEncryption(fs: Fs, exe: string, input: string, run: ProcessResult, read: ReadResult)
    returns (paths: Option<(string, string)>, trace: seq<Effect>)
    ensures paths.None? <==> input == ""
    ensures paths.Some? ==> Free(fs, paths.value) && paths.value.0 != "" && paths.value.1 != ""
    ensures paths.Some? && Free(fs, (PlainEncrypted(input), PlainKey(input))) ==>
      paths.value == (PlainEncrypted(input), PlainKey(input))
    ensures paths.Some? && !Free(fs, (PlainEncrypted(input), PlainKey(input))) ==>
      exists n :: LeastFreeSuffix(fs, PlainEncrypted(input), PlainKey(input), n)
        && paths.value == NumberedPair(PlainEncrypted(input), PlainKey(input), n)
    ensures trace == EncryptionTrace(exe, input, paths, run, read)
    ensures Spawns(trace) == [] <==> input == ""
    ensures paths.Some? ==> Spawns(trace) == [EncryptArgv(exe, input, paths.value.0, paths.value.1)]
  {
    paths := GenerateOutputPaths(fs, input);
    trace := EncryptionTrace(exe, input, paths, run, read);
    SpawnsOfTrace(exe, input, paths, run, read);
  }

  /** Pressing the button, then the worker thread: a rejected press starts
      nothing; an accepted one starts the engine exactly once, on the
      window's executable and input and on a pair of free output paths. */
  method PressEncrypt(g: Gui, fs: Fs, run: ProcessResult, read: ReadResult)
    returns (s: Start, paths: Option<(string, string)>, trace: seq<Effect>)
    ensures s == StartEncryption(g, fs)
    ensures s.Rejected? ==> paths.None? && trace == []
    ensures s.Started? ==>
      && paths.Some? && Free(fs, paths.value)
      && trace == EncryptionTrace(s.gui.exe, s.gui.input, paths, run, read)
      && Spawns(trace) == [EncryptArgv(g.exe, g.input, paths.value.0, paths.value.1)]
    ensures |Spawns(trace)| == (if FileSelected(fs, g.input) && FileSelected(fs, g.exe) then 1 else 0)
  {
    s := StartEncryption(g, fs);
    if s.Rejected? {
      paths, trace := None, [];
      return;
    }
    paths, trace := RunEncryption(fs, s.gui.exe, s.gui.input, run, read);
  }

  // ---------------------------------------------------------------------
  // Views of a trace

  /** The argument vectors of the processes started, in order. */
  function Spawns(t: seq<Effect>): seq<seq<string>> {
    if t == [] then []
    else (if t[0].Spawn? then [t[0].argv] else []) + Spawns(t[1..])
  }

  /** The files read back, in order. */
  function Reads(t: seq<Effect>): seq<string> {
    if t == [] then []
    else (if t[0].ReadKey? then [t[0].path] else []) + Reads(t[1..])
  }

  /** Everything but the log lines. */
  function NonLogs(t: seq<Effect>): seq<Effect> {
    if t == [] then []
    else (if t[0].Log? then [] else [t[0]]) + NonLogs(t[1..])
  }

  lemma {:induction false} SpawnsAppend(a: seq<Effect>, b: seq<Effect>)
    ensures Spawns(a + b) == Spawns(a) + Spawns(b)
  {
    if a == [] {
      assert a + b == b;
    } else {
      var h := if a[0].Spawn? then [a[0].argv] else [];
      assert (a + b)[0] == a[0];
      assert (a + b)[1..] == a[1..] + b;
      SpawnsAppend(a[1..], b);
      assert Spawns(a + b) == h + Spawns(a[1..] + b);
      assert h + (Spawns(a[1..]) + Spawns(b)) == (h + Spawns(a[1..])) + Spawns(b);
    }
  }

  lemma {:induction false} ReadsAppend(a: seq<Effect>, b: seq<Effect>)
    ensures Reads(a + b) == Reads(a) + Reads(b)
  {
    if a == [] {
      assert a + b == b;
    } else {
      var h := if a[0].ReadKey? then [a[0].path] else [];
      assert (a + b)[0] == a[0];
      assert (a + b)[1..] == a[1..] + b;
      ReadsAppend(a[1..], b);
      assert Reads(a + b) == h + Reads(a[1..] + b);
      assert h + (Reads(a[1..]) + Reads(b)) == (h + Reads(a[1..])) + Reads(b);
    }
  }

  lemma {:induction false} NonLogsAppend(a: seq<Effect>, b: seq<Effect>)
    ensures NonLogs(a + b) == NonLogs(a) + NonLogs(b)
  {
    if a == [] {
      assert a + b == b;
    } else {
      var h := if a[0].Log? then [] else [a[0]];
      assert (a + b)[0] == a[0];
      assert (a + b)[1..] == a[1..] + b;
      NonLogsAppend(a[1..], b);
      assert NonLogs(a + b) == h + NonLogs(a[1..] + b);
      assert h + (NonLogs(a[1..]) + NonLogs(b)) == (h + NonLogs(a[1..])) + NonLogs(b);
    }
  }

  /** A stretch of effects that starts no process and reads no file. */
  predicate Quiet(t: seq<Effect>) {
    forall i :: 0 <= i < |t| ==> !t[i].Spawn? && !t[i].ReadKey?
  }

  lemma {:induction false} QuietViews(t: seq<Effect>)
    requires Quiet(t)
    ensures Spawns(t) == [] && Reads(t) == []
  {
    if t != [] {
      assert Quiet(t[1..]) by {
        forall i | 0 <= i < |t[1..]| ensures !t[1..][i].Spawn? && !t[1..][i].ReadKey? {
          assert t[1..][i] == t[i + 1];
        }
      }
      QuietViews(t[1..]);
    }
  }

  /** A stretch of log lines only. */
  predicate OnlyLogs(t: seq<Effect>) {
    forall i :: 0 <= i < |t| ==> t[i].Log?
  }

  lemma {:induction false} LogsAreSilent(t: seq<Effect>)
    requires OnlyLogs(t)
    ensures Spawns(t) == [] && Reads(t) == [] && NonLogs(t) == []
  {
    if t != [] {
      assert OnlyLogs(t[1..]) by {
        forall i | 0 <= i < |t[1..]| ensures t[1..][i].Log? { assert t[1..][i] == t[i + 1]; }
      }
      LogsAreSilent(t[1..]);
    }
  }

  /** The success branch reads the key path once and, besides log lines,
      sets the status, shows the dialog and reads the key. */
  lemma SucceededViews(enc: string, key: string, read: ReadResult)
    ensures Spawns(Succeeded(enc, key, read)) == []
    ensures Reads(Succeeded(enc, key, read)) == [key]
    ensures NonLogs(Succeeded(enc, key, read)) == [SetStatus(Completed), Show(SuccessDialog(enc, key)), ReadKey(key)]
  {
    var head := SuccessLines(enc, key);
    var mid := [SetStatus(Completed), Show(SuccessDialog(enc, key)), ReadKey(key)];
    var info := KeyInfo(read);
    assert Succeeded(enc, key, read) == head + (mid + info);
    LogsAreSilent(head);
    LogsAreSilent(info);
    SpawnsAppend(head, mid + info);
    SpawnsAppend(mid, info);
    ReadsAppend(head, mid + info);
    ReadsAppend(mid, info);
    NonLogsAppend(head, mid + info);
    NonLogsAppend(mid, info);
    MidViews(enc, key);
  }

  lemma MidViews(enc: string, key: string)
    ensures var mid := [SetStatus(Completed), Show(SuccessDialog(enc, key)), ReadKey(key)];
      Spawns(mid) == [] && Reads(mid) == [key] && NonLogs(mid) == mid
  {
    var c := [ReadKey(key)];
    assert c[1..] == [];
    assert Spawns(c) == [] + Spawns([]);
    assert Reads(c) == [key] + Reads([]);
    assert NonLogs(c) == c + NonLogs([]);
    var bc := [Show(SuccessDialog(enc, key))] + c;
    assert bc[1..] == c;
    assert Spawns(bc) == [] && Reads(bc) == [key] && NonLogs(bc) == bc;
    var mid := [SetStatus(Completed)] + bc;
    assert mid[1..] == bc;
    assert Spawns(mid) == [] && Reads(mid) == [key] && NonLogs(mid) == mid;
    assert mid == [SetStatus(Completed), Show(SuccessDialog(enc, key)), ReadKey(key)];
  }

  lemma VerdictViews(enc: string, key: string, run: ProcessResult, read: ReadResult)
    ensures Spawns(Verdict(enc, key, run, read)) == []
    ensures Reads(Verdict(enc, key, run, read)) == (if run.Exit? && run.code == 0 then [key] else [])
    ensures run.Exit? && run.code == 0 ==>
      NonLogs(Verdict(enc, key, run, read)) == NonLogs(Succeeded(enc, key, read))
  {
    match run
    case Exit(code, stdout, stderr) =>
      var out := OutputLines(stdout, stderr);
      var tail := if code == 0 then Succeeded(enc, key, read) else Failed;
      LogsAreSilent(out);
      SpawnsAppend(out, tail);
      ReadsAppend(out, tail);
      NonLogsAppend(out, tail);
      if code == 0 {
        SucceededViews(enc, key, read);
      } else {
        QuietViews(Failed);
      }
    case Timeout =>
      QuietViews(TimedOutEffects);
    case Fault(message) =>
      QuietViews(Errored(message));
  }

  /** At most one process is started, and it is the engine called with
      `encrypt`, the input and the two output paths; none is started when
      no paths could be computed. */
  lemma SpawnsOfTrace(exe: string, input: string, paths: Option<(string, string)>,
                      run: ProcessResult, read: ReadResult)
    ensures paths.None? || paths.value.0 == "" || paths.value.1 == "" ==>
      Spawns(EncryptionTrace(exe, input, paths, run, read)) == []
    ensures paths.Some? && paths.value.0 != "" && paths.value.1 != "" ==>
      Spawns(EncryptionTrace(exe, input, paths, run, read))
        == [EncryptArgv(exe, input, paths.value.0, paths.value.1)]
  {
    TraceViews(exe, input, paths, run, read);
  }

  /** The key file is read back, from the key path, exactly when the
      engine exited with status 0. */
  lemma KeyReadOnlyOnSuccess(exe: string, input: string, paths: Option<(string, string)>,
                             run: ProcessResult, read: ReadResult)
    ensures Reads(EncryptionTrace(exe, input, paths, run, read))
      == if paths.Some? && paths.value.0 != "" && paths.value.1 != "" && run.Exit? && run.code == 0
         then [paths.value.1] else []
  {
    TraceViews(exe, input, paths, run, read);
  }

  lemma TraceViews(exe: string, input: string, paths: Option<(string, string)>,
                   run: ProcessResult, read: ReadResult)
    ensures paths.None? || paths.value.0 == "" || paths.value.1 == "" ==>
      Spawns(EncryptionTrace(exe, input, paths, run, read)) == []
      && Reads(EncryptionTrace(exe, input, paths, run, read)) == []
    ensures paths.Some? && paths.value.0 != "" && paths.value.1 != "" ==>
      Spawns(EncryptionTrace(exe, input, paths, run, read))
        == [EncryptArgv(exe, input, paths.value.0, paths.value.1)]
      && Reads(EncryptionTrace(exe, input, paths, run, read))
        == (if run.Exit? && run.code == 0 then [paths.value.1] else [])
  {
    if paths.None? || paths.value.0 == "" || paths.value.1 == "" {
      QuietViews(Errored(NoPaths) + Finally);
    } else {
      SpawnedTraceViews(exe, input, paths.value.0, paths.value.1, run, read);
    }
  }

  lemma SpawnedTraceViews(exe: string, input: string, enc: string, key: string,
                          run: ProcessResult, read: ReadResult)
    ensures Spawns(SpawnedTrace(exe, input, enc, key, run, read)) == [EncryptArgv(exe, input, enc, key)]
    ensures Reads(SpawnedTrace(exe, input, enc, key, run, read))
      == (if run.Exit? && run.code == 0 then [key] else [])
  {
    var plan := PlanLines(input, enc, key);
    var spawn := [Spawn(EncryptArgv(exe, input, enc, key))];
    var rest := Verdict(enc, key, run, read) + Finally;
    RestViews(enc, key, run, read);
    LogsAreSilent(plan);
    SpawnsAppend(spawn, rest);
    ReadsAppend(spawn, rest);
    SpawnsAppend(plan, spawn + rest);
    ReadsAppend(plan, spawn + rest);
  }

  lemma RestViews(enc: string, key: string, run: ProcessResult, read: ReadResult)
    ensures Spawns(Verdict(enc, key, run, read) + Finally) == []
    ensures Reads(Verdict(enc, key, run, read) + Finally) == (if run.Exit? && run.code == 0 then [key] else [])
  {
    VerdictViews(enc, key, run, read);
    QuietViews(Finally);
    SpawnsAppend(Verdict(enc, key, run, read), Finally);
    ReadsAppend(Verdict(enc, key, run, read), Finally);
  }

  /** Whatever happens, the trace ends by stopping the progress bar and
      re-enabling the button. */
  lemma TraceEndsReenabled(exe: string, input: string, paths: Option<(string, string)>,
                           run: ProcessResult, read: ReadResult)
    ensures |EncryptionTrace(exe, input, paths, run, read)| >= 2
    ensures var t := EncryptionTrace(exe, input, paths, run, read); t[|t| - 2..] == Finally
  {
  }

  /** The plan is logged before the engine is started: the trace opens
      with the five plan lines and then the one spawn. */
  lemma PlanBeforeSpawn(exe: string, input: string, enc: string, key: string,
                        run: ProcessResult, read: ReadResult)
    requires enc != "" && key != ""
    ensures var t := EncryptionTrace(exe, input, Some((enc, key)), run, read);
      |t| > 6 && t[..5] == PlanLines(input, enc, key) && t[5] == Spawn(EncryptArgv(exe, input, enc, key))
      && Spawns(t[6..]) == []
  {
    var t := EncryptionTrace(exe, input, Some((enc, key)), run, read);
    var rest := Verdict(enc, key, run, read) + Finally;
    assert t == (PlanLines(input, enc, key) + [Spawn(EncryptArgv(exe, input, enc, key))]) + rest;
    assert t[6..] == rest;
    VerdictViews(enc, key, run, read);
    SpawnsAppend(Verdict(enc, key, run, read), Finally);
  }

  /** When the engine printed on both streams, its standard output is
      logged, under its heading, before its standard error. */
  lemma StdoutBeforeStderr(exe: string, input: string, enc: string, key: string,
                           code: int, stdout: string, stderr: string, read: ReadResult)
    requires enc != "" && key != "" && stdout != "" && stderr != ""
    ensures var t := EncryptionTrace(exe, input, Some((enc, key)), Exit(code, stdout, stderr), read);
      exists i, j :: 0 <= i && i + 1 < j && j + 1 < |t|
        && t[i] == Log(ResultsHeading) && t[i + 1] == Log(Stripped(stdout))
        && t[j] == Log(ErrorOutputHeading) && t[j + 1] == Log(Stripped(stderr))
  {
    var run := Exit(code, stdout, stderr);
    var t := EncryptionTrace(exe, input, Some((enc, key)), run, read);
    var out := OutputLines(stdout, stderr);
    var after := Verdict(enc, key, run, read) + Finally;
    var rest := [Spawn(EncryptArgv(exe, input, enc, key))] + after;
    assert t == PlanLines(input, enc, key) + rest;
    assert out == [Log(ResultsHeading), Log(Stripped(stdout)), Log(ErrorOutputHeading), Log(Stripped(stderr))];
    assert after[..4] == out;
    assert t[6..10] == rest[1..5] == after[..4];
    assert t[6] == out[0] && t[7] == out[1] && t[8] == out[2] && t[9] == out[3];
  }

  /** Whether the key file could be read back changes only log lines: the
      status, the dialogs and the final re-enabling are the same. */
  lemma ReadOutcomeOnlyLogs(exe: string, input: string, enc: string, key: string,
                            stdout: string, stderr: string, read1: ReadResult, read2: ReadResult)
    requires enc != "" && key != ""
    ensures NonLogs(EncryptionTrace(exe, input, Some((enc, key)), Exit(0, stdout, stderr), read1))
         == NonLogs(EncryptionTrace(exe, input, Some((enc, key)), Exit(0, stdout, stderr), read2))
  {
    SuccessEffects(exe, input, enc, key, stdout, stderr, read1);
    SuccessEffects(exe, input, enc, key, stdout, stderr, read2);
  }

  /** Apart from log lines, a successful run starts the engine, sets the
      success status, shows the success dialog, reads the key file back,
      and stops the progress bar and re-enables the button, in that
      order. */
  lemma SuccessEffects(exe: string, input: string, enc: string, key: string,
                       stdout: string, stderr: string, read: ReadResult)
    ensures NonLogs(SpawnedTrace(exe, input, enc, key, Exit(0, stdout, stderr), read))
      == [Spawn(EncryptArgv(exe, input, enc, key)), SetStatus(Completed), Show(SuccessDialog(enc, key)),
          ReadKey(key), StopProgress, EnableButton]
  {
    var plan := PlanLines(input, enc, key);
    var spawn := [Spawn(EncryptArgv(exe, input, enc, key))];
    var rest := Verdict(enc, key, Exit(0, stdout, stderr), read) + Finally;
    SuccessTail(enc, key, stdout, stderr, read);
    LogsAreSilent(plan);
    NonLogsAppend(spawn, rest);
    assert NonLogs(spawn) == spawn by {
      assert spawn[1..] == [];
    }
    NonLogsAppend(plan, spawn + rest);
  }

  lemma SuccessTail(enc: string, key: string, stdout: string, stderr: string, read: ReadResult)
    ensures NonLogs(Verdict(enc, key, Exit(0, stdout, stderr), read) + Finally)
      == [SetStatus(Completed), Show(SuccessDialog(enc, key)), ReadKey(key), StopProgress, EnableButton]
  {
    var verdict := Verdict(enc, key, Exit(0, stdout, stderr), read);
    VerdictViews(enc, key, Exit(0, stdout, stderr), read);
    SucceededViews(enc, key, read);
    NonLogsAppend(verdict, Finally);
    FinallyViews();
  }

  lemma FinallyViews()
    ensures NonLogs(Finally) == Finally
  {
    assert Finally[1..] == [EnableButton];
    assert Finally[1..][1..] == [];
  }
}

=== FILE: wrappers.dfy ===
/** The optional value used wherever the modelled code returns `None`,
    `NULL` or a failed conversion. */
module Wrappers {

  datatype Option<+T> = None | Some(value: T)
}
